=== FILE: README.md ===
# Ordered set over a binary search tree, with inorder, preorder and postorder iterators

This project is a Dafny model of the core of a header-only C++ ordered-set library. The library has four parts:

- `Tree` is an unbalanced binary search tree. It supports insertion, removal, lookup, copy and key-set equality, and keeps a cell counter.
- Free functions on `Node` find where a forward or backward iteration starts in each of the three orders: inorder, preorder and postorder.
- `TreeIterator` steps forward and backward in the chosen order. It follows only left, right and parent links, with no stack. A null position is the end position.
- `Set` is a thin facade. It owns a tree and caches the first and last cells of its order. It recomputes both caches after every mutation and hands out forward and reverse iterators.

How the model represents these:

- The tree is an immutable `Subtree = Nil | Node(left, key, right)` with `int` keys ordered by `<`.
- A cell is addressed by its root-to-cell path of `Left`/`Right` steps. A parent link is the path without its last step. "Is a left child" means the last step is `Left`.
- A null cell pointer is `None` of an `Option<Path>`.
- Each pointer-walking loop is a recursive function over paths, and it is proved correct against a recursively defined reference. `InorderPaths`, `PreorderPaths` and `PostorderPaths` list every position of a tree in each order, and every step is proved to move exactly one place along its order's list.
- `TraversalKeys` gives the keys each order yields.
- The tree invariant is `Tree.Valid`: the search-tree ordering, plus "the counter equals the number of cells".
- The set invariant is `OrderedSet.Valid`: the tree invariant, plus "both caches equal the begin/rbegin functions applied to the current root".

Modules, in dependency order:

- `Wrappers`: `Option`.
- `Nodes`: subtrees, paths, the subtree predicates, the descents, and the begin/rbegin functions.
- `Traversals`: the reference position and key sequences, and where begin and rbegin lie in them.
- `InorderSteps`, `PreorderSteps`, `PostorderSteps`: the link-walking successor and predecessor of each order.
- `TreeIterator`: the order-polymorphic step, the iterator, and `++`/`--`/`*`.
- `Trees`: the search tree.
- `Sets`: the facade, whole forward and reverse iterations, and the scenarios of the library's test suite.

Some operations need no contract and have no row below:

- The subtree predicates `HasLeftSubtree`/`HasRightSubtree` are "the child link is not null" by definition.
- `End`, `RBegin` and `REnd` build iterators from the end position and the cached begin cell.
- A reverse iterator's `RDeref` reads the cell before its base, and `RIncrement` steps its base backward, as `std::reverse_iterator` does.
- Iterator `operator==` compares root and position. In the model this is the datatype's own equality.
- `Trees.Find` (`find`, include/Set/Tree.hpp:86) only hands the whole root to `FindInSubtree`, whose row states the search.
- `TreeIterator.Deref` (`operator*`, include/Set/TreeIterator.hpp:84) reads the key at the current cell.
- The dispatchers `TreeIterator.NextNode` and `TreeIterator.PrevNode` pick the per-order step. Their contracts are the `TreeIterator.NextNodeIsSuccessor`, `TreeIterator.PrevNodeIsPredecessor` and `TreeIterator.PrevOfEndIsLast` rows.
- The per-order steps `Next` and `Prev` of `InorderSteps`, `PreorderSteps` and `PostorderSteps` get their contracts from the `NextIsSuccessor` and `PrevIsPredecessor` rows of their modules.

## Model

| member | source | states |
|---|---|---|
| Nodes.LeftmostPath | include/Set/Node.hpp:44-46 | Following left links only, the descent reaches a cell of the tree that has no left child |
| Nodes.RightmostPath | include/Set/Node.hpp:71-73 | Following right links only, the descent reaches a cell of the tree that has no right child |
| Nodes.PostorderFirstPath | include/Set/Node.hpp:58-61 | Preferring left and otherwise going right, the descent stops at a leaf of the tree |
| Nodes.PreorderLastPath | include/Set/Node.hpp:81-84 | Preferring right and otherwise going left, the descent stops at a leaf of the tree |
| Nodes.FindBeginNode | include/Set/Node.hpp:40-63 | Every begin function returns null exactly for a null root, and otherwise a cell of the tree |
| Nodes.FindRbeginNode | include/Set/Node.hpp:67-90 | Every rbegin function returns null exactly for a null root, and otherwise a cell of the tree |
| Nodes.ParentIsNode | include/Set/Tree.hpp:140-141 | The parent of a non-root cell is a cell, and that cell's child on the last step is the cell itself |
| Traversals.LeftmostIsInorderFirst | include/Set/Node.hpp:41-48 | The leftmost cell is the first position of the inorder sequence |
| Traversals.RightmostIsInorderLast | include/Set/Node.hpp:68-75 | The rightmost cell is the last position of the inorder sequence |
| Traversals.PostorderFirstPathIsFirst | include/Set/Node.hpp:55-63 | The leaf reached by the postorder begin descent is the first position of the postorder sequence |
| Traversals.PreorderLastPathIsLast | include/Set/Node.hpp:78-86 | The leaf reached by the preorder rbegin descent is the last position of the preorder sequence |
| Traversals.BeginIsFirst | include/Set/Node.hpp:40-63 | For every order, begin is the first position of that order's sequence, or null for an empty tree. For preorder the first position is the root itself |
| Traversals.RbeginIsLast | include/Set/Node.hpp:67-90 | For every order, rbegin is the last position of that order's sequence, or null for an empty tree. For postorder the last position is the root itself |
| InorderSteps.AncestorFromLeft | include/Set/TreeIterator.hpp:110-118 | The parent climb from a cell ends at its nearest proper ancestor reached from the left, where the step below it goes left and every deeper step goes right. It ends at null exactly when every step of the path goes right |
| InorderSteps.AncestorFromRight | include/Set/TreeIterator.hpp:172-180 | The parent climb from a cell ends at its nearest proper ancestor reached from the right, where the step below it goes right and every deeper step goes left. It ends at null exactly when every step of the path goes left |
| InorderSteps.NextIsSuccessor | include/Set/TreeIterator.hpp:102-119 | From the i-th inorder cell, the inorder successor walk reaches the (i+1)-th cell, or null after the last |
| InorderSteps.PrevIsPredecessor | include/Set/TreeIterator.hpp:164-181 | From the i-th inorder cell, the inorder predecessor walk reaches the (i-1)-th cell, or null before the first |
| PreorderSteps.RightSiblingAbove | include/Set/TreeIterator.hpp:128-137 | The climb yields a cell of the tree: the right child of the deepest ancestor on the path that is left through its left child and has a right child. It yields null exactly when no ancestor on the path qualifies |
| PreorderSteps.NextIsSuccessor | include/Set/TreeIterator.hpp:121-138 | From the i-th preorder cell, the preorder successor walk reaches the (i+1)-th cell, or null after the last |
| PreorderSteps.PrevIsPredecessor | include/Set/TreeIterator.hpp:183-199 | From the i-th preorder cell with i > 0, which is never the root, the preorder predecessor walk reaches the (i-1)-th cell |
| PostorderSteps.LeftSiblingAbove | include/Set/TreeIterator.hpp:210-215 | The climb yields a cell of the tree: the left child of the deepest ancestor on the path that is left through its right child and has a left child. It yields null exactly when no ancestor on the path qualifies |
| PostorderSteps.NextIsSuccessor | include/Set/TreeIterator.hpp:140-162 | From the i-th postorder cell, the postorder successor walk reaches the (i+1)-th cell. From the root, which comes last, it reaches null |
| PostorderSteps.PrevIsPredecessor | include/Set/TreeIterator.hpp:201-218 | From the i-th postorder cell, the postorder predecessor walk reaches the (i-1)-th cell, or null before the first |
| TreeIterator.NextNodeIsSuccessor | include/Set/TreeIterator.hpp:102-162 | For every order, the forward step moves from the i-th position to the (i+1)-th, or to the end |
| TreeIterator.PrevNodeIsPredecessor | include/Set/TreeIterator.hpp:164-218 | For every order, the backward step moves from the i-th position to the (i-1)-th, or to null. In preorder this needs i > 0 |
| TreeIterator.PrevOfEndIsLast | include/Set/TreeIterator.hpp:164-165 | For every order, stepping back from the end position gives the order's last position (the same holds at lines 184-185 and 202) |
| TreeIterator.PrevUndoesNext | include/Set/TreeIterator.hpp:64-82 | Decrementing after incrementing returns to the same cell, including from the last cell through the end position |
| TreeIterator.NextUndoesPrev | include/Set/TreeIterator.hpp:64-82 | Incrementing after a decrement that lands on a cell returns to the starting position, including the end position |
| TreeIterator.Increment | include/Set/TreeIterator.hpp:64-67 | Prefix `++` keeps the root and moves the position to the next one of the order's sequence |
| TreeIterator.Decrement | include/Set/TreeIterator.hpp:74-77 | Prefix `--` keeps the root. It moves the position to the previous one of the order's sequence, and from the end position to the last one |
| TreeIterator.PostIncrementAsWritten | include/Set/TreeIterator.hpp:69-72 | Postfix `++` as written: the iterator moves to the next position of the order, and the value of the expression is that already-moved iterator |
| TreeIterator.PostDecrementAsWritten | include/Set/TreeIterator.hpp:79-82 | Postfix `--` as written: the iterator moves to the previous position of the order, or from the end position to the last one, and the value of the expression is that already-moved iterator |
| TreeIterator.PostfixYieldsMovedIterator | include/Set/TreeIterator.hpp:69-82 | Over the single key 5, the value of `it++` or `it--` at that cell cannot be dereferenced |
| TreeIterator.PostIncrement | include/Set/TreeIterator.hpp:69-72 | Corrected postfix `++`: the iterator moves one place forward and the expression yields the old position |
| TreeIterator.PostDecrement | include/Set/TreeIterator.hpp:79-82 | Corrected postfix `--`: the iterator moves one place backward, or from the end position to the last one, and the expression yields the old position |
| Trees.BstSizeIsKeyCount | include/Set/Tree.hpp:80 | In a search tree the number of cells equals the number of distinct keys |
| Trees.SizeIsKeyCount | include/Set/Tree.hpp:80 | Under the tree invariant, `size()` is the number of keys in the set |
| Trees.LeftmostIsMin | include/Set/Node.hpp:41-48 | The inorder begin cell holds the smallest key of a search tree |
| Trees.RightmostIsMax | include/Set/Node.hpp:68-75 | The inorder rbegin cell holds the largest key of a search tree |
| Trees.TraversalKeysAreKeys | include/Set/Set.hpp:77-79 | An iteration in any order yields exactly the keys the tree holds |
| Trees.InorderIncreasingOfBst | tests/tests.cpp:63-78 | In a search tree, the inorder iteration yields strictly increasing keys |
| Trees.BstOfInorderIncreasing | tests/tests.cpp:63-78 | A tree whose inorder iteration yields strictly increasing keys satisfies the search-tree ordering |
| Trees.BstIffInorderIncreasing | tests/tests.cpp:63-78 | The search-tree ordering holds if and only if the inorder iteration yields strictly increasing keys |
| Trees.FindInSubtree | include/Set/Tree.hpp:217-226 | A found cell holds the key. In a search tree, a cell is found if and only if the key is present |
| Trees.InsertIntoSubtree | include/Set/Tree.hpp:125-157 | The key is added to the key set and its cell is returned. A cell is allocated, and the count grows by one, exactly when the key was absent. The new cell is a leaf at a formerly null slot whose parent is an old cell. Every old cell stays at its path with its key, so nothing is restructured and the new leaf hangs below the last cell the descent visited. A duplicate returns the existing cell and changes nothing. The search-tree ordering is kept |
| Trees.Insert | include/Set/Tree.hpp:125-157 | Insertion keeps the invariant and adds the key. A present key leaves the tree unchanged. An absent key grows the counter by one and becomes a new leaf: the root of an empty tree, otherwise a child of an existing cell. Every existing cell keeps its path and key (the tree is not rebalanced), so the leaf is attached at the null slot where the search descent ends. Lookup then finds the returned cell |
| Trees.RemoveFromSubtree | include/Set/Tree.hpp:159-206 | In a search tree, removal keeps the ordering and removes exactly the key. It reports a removal, and drops one cell, exactly when the key was present. An absent key leaves the subtree unchanged |
| Trees.RemoveTwoChildren | include/Set/Tree.hpp:190-200 | A cell with two children receives the largest key of its left subtree. That key is removed from the left subtree, and the right subtree is untouched |
| Trees.Remove | include/Set/Tree.hpp:208-215 | Removal keeps the invariant and removes the key. It returns true exactly when the key was present, and then the counter drops by one. Otherwise, including on an empty tree, nothing changes |
| Trees.RemoveUndoesInsert | include/Set/Tree.hpp:165-170 | Removing a key just inserted, which is a leaf, restores the original tree cell for cell and reports true |
| Trees.EmptyTree | include/Set/Tree.hpp:24-29 | A new tree satisfies the invariant and holds no keys |
| Trees.IsEmpty | include/Set/Tree.hpp:78 | `empty()` holds exactly when the key set is empty, and under the invariant exactly when the counter is zero |
| Trees.CopySubtree | include/Set/Tree.hpp:228-236 | The copy has the original's shape and keys |
| Trees.CopyTree | include/Set/Tree.hpp:32-37 | The copied tree equals the original, counter included, so it keeps the invariant |
| Trees.CompareWith | include/Set/Tree.hpp:238-244 | Against a search tree, the result is true exactly when every key of this subtree is a key of the other tree |
| Trees.Equal | include/Set/Tree.hpp:65-68 | Two valid trees compare equal exactly when they hold the same key set |
| Sets.EmptySet | include/Set/Set.hpp:32-38 | A new set is valid and empty, and its `begin()` equals its `end()` |
| Sets.CopySet | include/Set/Set.hpp:40-45 | A copy is valid, with recomputed caches and the same elements. A copy of a valid set equals it |
| Sets.Contains | include/Set/Set.hpp:122 | `contains(k)` holds exactly when k is an element |
| Sets.IsEmpty | include/Set/Set.hpp:132 | `empty()` holds exactly when there are no elements |
| Sets.Cardinality | include/Set/Set.hpp:134 | `size()` is the number of elements |
| Sets.Equal | include/Set/Set.hpp:72 | Two sets compare equal exactly when they hold the same elements |
| Sets.Insert | include/Set/Set.hpp:93-107 | Insertion adds the key and keeps both caches in step with the new root. It reports true exactly when the key was absent. A duplicate leaves the set unchanged and returns the existing cell. The returned cell holds the key |
| Sets.Erase | include/Set/Set.hpp:109-120 | Erasure removes the key and keeps both caches in step with the new root. It reports true exactly when the key was present. An absent key leaves the set unchanged |
| Sets.EraseUndoesInsert | include/Set/Set.hpp:93-120 | Erasing a key just inserted restores the set exactly and reports true |
| Sets.Begin | include/Set/Set.hpp:77 | `begin()` is the first position of the set's order, or the end position for an empty set |
| Sets.RBeginReadsLast | include/Set/Set.hpp:85 | On a non-empty set, `*rbegin()` reads the last key of the order, at the cached rbegin cell |
| Sets.IterateForward | include/Set/Set.hpp:77-79 | Looping from `begin()` with `++` until `end()` yields the order's key sequence |
| Sets.IterateBackward | include/Set/Set.hpp:85-87 | Looping from `rbegin()` with reverse `++` until `rend()` yields the order's key sequence back to front |
| Sets.IterationExample | tests/tests.cpp:63-164 | After inserting 5, 3 and 6, forward and reverse iteration yield: [3,5,6] and [6,5,3] inorder; [5,3,6] and [6,3,5] preorder; [3,6,5] and [5,6,3] postorder |
| Sets.InsertExample | tests/tests.cpp:5-15 | Re-inserting 5 reports false, and inserting 6 reports true. 5 is then contained and 9 is not |
| Sets.EraseExample | tests/tests.cpp:17-28 | After erasing 5 from {5, 8}, 8 is contained and 5 is not, and erasing the absent 7 reports false |
| Sets.EqualityExample | tests/tests.cpp:30-46 | {5, 3, 6} differs from {5, 6} until 3 is erased |
| Sets.CopyExample | tests/tests.cpp:48-61 | A copy of {5, 3, 6} contains 5, 3 and 6 but not 1 |

## Left out

- Allocation and teardown are not modelled: the allocator calls, node construction and destruction, `_clear_subtree` and the destructors. Cells are values.
- `Tree::clear` and `Set::clear` are not modelled. They release every cell but leave the root and counter dangling (include/Set/Tree.hpp:72), so there is no coherent state afterwards.
- The move constructors and the copy and move assignments are not modelled. `Tree`'s copy assignment leaks the old cells. `Set`'s move assignment has no return statement, and it would not compile if instantiated.
- `Set::find` is not modelled. It calls the tree's `find` with no argument and would not compile if instantiated.
- Parent links are not stored: a cell's parent is its path prefix. This hides two things in the source:
  - the parent re-pointing on removal;
  - the fact that `_copy_subtree` never sets parent links in a copy, so iterating a copied tree follows null parents.
- The iterator that `Set::insert` returns is not modelled. Its root is read in an unspecified evaluation order relative to the insertion, so it may be the stale root. Sets.Insert returns the inserted cell's path instead.
- The const variants are not modelled. `cbegin` and `cend` hold the same positions as `begin` and `end`, but as `const` iterators, which `++` and `--` cannot step because those operators are non-const. `crbegin` and `crend` wrap a `const` iterator in `std::reverse_iterator`, whose `*` and `++` would call the non-const `operator--` on it, and the library specialises `std::iterator_traits` only for the non-const iterator, so calling either would not compile. `operator!=` is not modelled, because it is the negation of `operator==`. Also left out are the `std::iterator_traits` specialisations, typedefs and order tag structs, which carry no behaviour.
- Writing through an iterator is not modelled. The non-const `operator*` returns a mutable reference to the cell's key (include/Set/TreeIterator.hpp:84), and `begin()` hands out non-const iterators, so `*it = v` can rewrite a key in place and break the search-tree ordering. The model's `TreeIterator.Deref` only reads, and every tree is assumed to keep `Tree.Valid`.
- Only `int` keys with `<` are modelled. The comparator and allocator template parameters are fixed to that case.
- Iterator identity is modelled by value. An iterator compares its root pointer and cell pointer. The model compares the root subtree and the path, so two distinct trees with equal contents count as the same root.
- Aborts and null dereferences become preconditions:
  - the inorder and preorder forward steps `exit` on the end position, and the postorder one dereferences null there, so NextNode requires a cell;
  - the preorder backward step dereferences the root's missing parent, so PrevNode excludes the root in preorder;
  - `operator*` requires a cell.
- Trees.RemoveFromSubtree: its guarantees are stated only for search trees, which is the only case the class invariant permits.
- The copy constructor of `Tree` initialises its members in declaration order, so it uses the allocator before constructing it. That is a matter of object lifetime and not of the set's behaviour.

## Findings

| source | as written | input that shows it | evidently intended | confidence | as-written member | corrected member |
|---|---|---|---|---|---|---|
| include/Set/TreeIterator.hpp:69-72 | postfix `operator++(int)` moves the iterator and returns `*this`, exactly like prefix `++` | inorder set {5}, `*(it++)` with `it` at 5: the expression is already the end position and reads no key | `it++` yields the position held before the move, as postfix increment does for standard iterators | medium; not executed | TreeIterator.PostIncrementAsWritten | TreeIterator.PostIncrement |
| include/Set/TreeIterator.hpp:79-82 | postfix `operator--(int)` moves the iterator and returns `*this`, exactly like prefix `--` | inorder set {5}, `*(it--)` with `it` at 5: the expression is already the null position before the first cell | `it--` yields the position held before the move | medium; not executed | TreeIterator.PostDecrementAsWritten | TreeIterator.PostDecrement |

TreeIterator.PostfixYieldsMovedIterator exhibits both inputs.

=== FILE: inorder_steps.dfy ===
/** Inorder successor and predecessor of a cell, computed only by following links.

    `Next` and `Prev` mirror the two pointer walks: descend into the right (left)
    subtree when there is one, otherwise climb parent links until the cell climbed
    from is a left (right) child. Both are proved to move exactly one position along
    `InorderPaths`.
 */
module InorderSteps {
  import opened Wrappers
  import opened Nodes
  import opened Traversals

  /** Climb while the current cell is a right child; the parent reached from its left child.
      That is the nearest ancestor whose step towards `p` goes left, or null if every step
      of `p` goes right. */
  function AncestorFromLeft(p: Path): (r: Option<Path>)
    ensures r.Some? ==> |r.value| < |p| && r.value == p[..|r.value|]
    ensures r.Some? ==> p[|r.value|] == Left && forall j | |r.value| < j < |p| :: p[j] == Right
    ensures r.None? <==> forall j | 0 <= j < |p| :: p[j] == Right
    decreases |p|
  {
    if |p| == 0 then None
    else if LastStep(p) == Left then Some(Parent(p))
    else
      var r := AncestorFromLeft(Parent(p));
      assert p[|p| - 1] == Right;
      assert forall j | 0 <= j < |p| - 1 :: Parent(p)[j] == p[j];
      r
  }

  /** Climb while the current cell is a left child; the parent reached from its right child.
      That is the nearest ancestor whose step towards `p` goes right, or null if every step
      of `p` goes left. */
  function AncestorFromRight(p: Path): (r: Option<Path>)
    ensures r.Some? ==> |r.value| < |p| && r.value == p[..|r.value|]
    ensures r.Some? ==> p[|r.value|] == Right && forall j | |r.value| < j < |p| :: p[j] == Left
    ensures r.None? <==> forall j | 0 <= j < |p| :: p[j] == Left
    decreases |p|
  {
    if |p| == 0 then None
    else if LastStep(p) == Right then Some(Parent(p))
    else
      var r := AncestorFromRight(Parent(p));
      assert p[|p| - 1] == Left;
      assert forall j | 0 <= j < |p| - 1 :: Parent(p)[j] == p[j];
      r
  }

  /** The inorder step forward from the cell at `p`; `None` is the end position. */
  function Next(n: Subtree, p: Path): Option<Path>
    requires IsNodeAt(n, p)
  {
    var node := At(n, p);
    if HasRightSubtree(node) then Some(p + [Right] + LeftmostPath(node.right))
    else AncestorFromLeft(p)
  }

  /** The inorder step backward from the cell at `p`; `None` before the first cell. */
  function Prev(n: Subtree, p: Path): Option<Path>
    requires IsNodeAt(n, p)
  {
    var node := At(n, p);
    if HasLeftSubtree(node) then Some(p + [Left] + RightmostPath(node.left))
    else AncestorFromRight(p)
  }

  // ---------------------------------------------------------------------------
  // The walks seen from one level up
  // ---------------------------------------------------------------------------

  lemma {:induction false} AncestorFromLeftCons(d: Dir, q: Path)
    ensures AncestorFromLeft([d] + q) ==
      if AncestorFromLeft(q).Some? then LiftOpt(d, AncestorFromLeft(q))
      else if d == Left then Some([]) else None
    decreases |q|
  {
    if |q| == 0 {
      assert [d] + q == [d];
      assert Parent([d]) == [];
    } else {
      ParentOfCons(d, q);
      AncestorFromLeftCons(d, Parent(q));
    }
  }

  lemma {:induction false} AncestorFromRightCons(d: Dir, q: Path)
    ensures AncestorFromRight([d] + q) ==
      if AncestorFromRight(q).Some? then LiftOpt(d, AncestorFromRight(q))
      else if d == Right then Some([]) else None
    decreases |q|
  {
    if |q| == 0 {
      assert [d] + q == [d];
      assert Parent([d]) == [];
    } else {
      ParentOfCons(d, q);
      AncestorFromRightCons(d, Parent(q));
    }
  }

  lemma NextCons(n: Subtree, d: Dir, q: Path)
    requires n.Node? && IsNodeAt(Child(n, d), q)
    ensures IsNodeAt(n, [d] + q)
    ensures Next(n, [d] + q) ==
      if Next(Child(n, d), q).Some? then LiftOpt(d, Next(Child(n, d), q))
      else if d == Left then Some([]) else None
  {
    AtCons(n, d, q);
    var node := At(n, [d] + q);
    if HasRightSubtree(node) {
      var m := LeftmostPath(node.right);
      assert [d] + q + [Right] + m == [d] + (q + [Right] + m);
    } else {
      AncestorFromLeftCons(d, q);
    }
  }

  lemma PrevCons(n: Subtree, d: Dir, q: Path)
    requires n.Node? && IsNodeAt(Child(n, d), q)
    ensures IsNodeAt(n, [d] + q)
    ensures Prev(n, [d] + q) ==
      if Prev(Child(n, d), q).Some? then LiftOpt(d, Prev(Child(n, d), q))
      else if d == Right then Some([]) else None
  {
    AtCons(n, d, q);
    var node := At(n, [d] + q);
    if HasLeftSubtree(node) {
      var m := RightmostPath(node.left);
      assert [d] + q + [Left] + m == [d] + (q + [Left] + m);
    } else {
      AncestorFromRightCons(d, q);
    }
  }

  // ---------------------------------------------------------------------------
  // Correctness against the inorder sequence
  // ---------------------------------------------------------------------------

  /** The forward walk from the i-th inorder cell reaches the (i+1)-th, or the end after the last. */
  lemma {:induction false} NextIsSuccessor(n: Subtree, i: nat)
    requires i < Size(n)
    ensures IsNodeAt(n, InorderPaths(n)[i])
    ensures Next(n, InorderPaths(n)[i]) == After(InorderPaths(n), i)
  {
    var s := InorderPaths(n);
    var l, r := n.left, n.right;
    var a := Size(l);
    if i < a {
      var q := InorderPaths(l)[i];
      NextIsSuccessor(l, i);
      assert s[i] == [Left] + q;
      NextCons(n, Left, q);
      if i + 1 < a {
        assert s[i + 1] == [Left] + InorderPaths(l)[i + 1];
      } else {
        assert s[i + 1] == [];
      }
    } else if i == a {
      assert s[i] == [];
      if r.Node? {
        LeftmostIsInorderFirst(r);
        assert s[i + 1] == [Right] + InorderPaths(r)[0];
        assert [] + [Right] + LeftmostPath(r) == [Right] + LeftmostPath(r);
      }
    } else {
      var j := i - a - 1;
      var q := InorderPaths(r)[j];
      NextIsSuccessor(r, j);
      assert s[i] == [Right] + q;
      NextCons(n, Right, q);
      if j + 1 < Size(r) {
        assert s[i + 1] == [Right] + InorderPaths(r)[j + 1];
      }
    }
  }

  /** The backward walk from the i-th inorder cell reaches the (i-1)-th, or null before the first. */
  lemma {:induction false} PrevIsPredecessor(n: Subtree, i: nat)
    requires i < Size(n)
    ensures IsNodeAt(n, InorderPaths(n)[i])
    ensures Prev(n, InorderPaths(n)[i]) == Before(InorderPaths(n), i)
  {
    var s := InorderPaths(n);
    var l, r := n.left, n.right;
    var a := Size(l);
    if i < a {
      var q := InorderPaths(l)[i];
      PrevIsPredecessor(l, i);
      assert s[i] == [Left] + q;
      PrevCons(n, Left, q);
      if i > 0 {
        assert s[i - 1] == [Left] + InorderPaths(l)[i - 1];
      }
    } else if i == a {
      assert s[i] == [];
      if l.Node? {
        RightmostIsInorderLast(l);
        assert s[i - 1] == [Left] + InorderPaths(l)[a - 1];
        assert [] + [Left] + RightmostPath(l) == [Left] + RightmostPath(l);
      }
    } else {
      var j := i - a - 1;
      var q := InorderPaths(r)[j];
      PrevIsPredecessor(r, j);
      assert s[i] == [Right] + q;
      PrevCons(n, Right, q);
      if j > 0 {
        assert s[i - 1] == [Right] + InorderPaths(r)[j - 1];
      } else {
        assert s[i - 1] == [];
      }
    }
  }
}

=== FILE: nodes.dfy ===
/** Tree cells, addressing by root-to-node paths, and the begin/rbegin descents.

    A node is named by the steps taken from the root to reach it. The root is the
    empty path, the parent of a node is its path without the last step, and a node
    is a left child exactly when its last step is `Left`. The parent back-link of
    the pointer structure is therefore part of the address and cannot go stale.
 */
module Nodes {
  import opened Wrappers

  /** One step of a root-to-node path: into the left or into the right child. */
  datatype Dir = Left | Right

  type Path = seq<Dir>

  /** A subtree: `Nil` is the null pointer, `Node` a cell owning its two children. */
  datatype Subtree = Nil | Node(left: Subtree, key: int, right: Subtree)

  /** The traversal order a container and its iterators are fixed to. */
  datatype Order = Inorder | Preorder | Postorder

  /** Number of cells reachable from `n`. */
  function Size(n: Subtree): nat
  {
    match n
    case Nil => 0
    case Node(l, _, r) => Size(l) + 1 + Size(r)
  }

  function Child(n: Subtree, d: Dir): Subtree
    requires n.Node?
  {
    if d == Left then n.left else n.right
  }

  /** The subtree reached from `n` by following `p`; `Nil` once the path falls off the tree. */
  function At(n: Subtree, p: Path): Subtree
    decreases |p|
  {
    if |p| == 0 || n.Nil? then n else At(Child(n, p[0]), p[1..])
  }

  /** `p` addresses a cell of `n` (a non-null pointer). */
  predicate IsNodeAt(n: Subtree, p: Path)
  {
    At(n, p).Node?
  }

  function Parent(p: Path): Path
    requires |p| > 0
  {
    p[..|p| - 1]
  }

  function LastStep(p: Path): Dir
    requires |p| > 0
  {
    p[|p| - 1]
  }

  /** The library's subtree checks: a child link is present. */
  predicate HasLeftSubtree(n: Subtree)
    requires n.Node?
  {
    n.left.Node?
  }

  predicate HasRightSubtree(n: Subtree)
    requires n.Node?
  {
    n.right.Node?
  }

  predicate IsLeafNode(n: Subtree)
  {
    n.Node? && n.left.Nil? && n.right.Nil?
  }

  // ---------------------------------------------------------------------------
  // Path algebra
  // ---------------------------------------------------------------------------

  lemma AtNil(p: Path)
    ensures At(Nil, p) == Nil
  {
  }

  /** Prepending a step to a path prepends it to the parent and keeps the last step. */
  lemma ParentOfCons(d: Dir, q: Path)
    ensures Parent([d] + q) == if |q| == 0 then [] else [d] + Parent(q)
    ensures |q| > 0 ==> LastStep([d] + q) == LastStep(q)
  {
  }

  lemma AtCons(n: Subtree, d: Dir, q: Path)
    requires n.Node?
    ensures At(n, [d] + q) == At(Child(n, d), q)
  {
    assert ([d] + q)[1..] == q;
  }

  /** Following `p` and then `q` is following `p + q`. */
  lemma {:induction false} AtConcat(n: Subtree, p: Path, q: Path)
    ensures At(n, p + q) == At(At(n, p), q)
    decreases |p|
  {
    if |p| == 0 {
      assert p + q == q;
    } else if n.Nil? {
      AtNil(q);
    } else {
      assert (p + q)[0] == p[0];
      assert (p + q)[1..] == p[1..] + q;
      AtConcat(Child(n, p[0]), p[1..], q);
    }
  }

  lemma AtSnoc(n: Subtree, p: Path, d: Dir)
    requires IsNodeAt(n, p)
    ensures At(n, p + [d]) == Child(At(n, p), d)
  {
    AtConcat(n, p, [d]);
    assert [d][1..] == [];
  }

  /** The parent of a cell is a cell, and holds it on the side of the last step. */
  lemma ParentIsNode(n: Subtree, p: Path)
    requires |p| > 0 && IsNodeAt(n, p)
    ensures IsNodeAt(n, Parent(p))
    ensures Child(At(n, Parent(p)), LastStep(p)) == At(n, p)
  {
    assert p == Parent(p) + [LastStep(p)];
    AtConcat(n, Parent(p), [LastStep(p)]);
  }

  // ---------------------------------------------------------------------------
  // Descents used by the begin/rbegin functions and by the iterator steps
  // ---------------------------------------------------------------------------

  /** Keep taking the left link while there is one. */
  function LeftmostPath(n: Subtree): (p: Path)
    requires n.Node?
    ensures IsNodeAt(n, p) && !HasLeftSubtree(At(n, p))
    ensures forall i | 0 <= i < |p| :: p[i] == Left
    decreases n
  {
    if n.left.Nil? then []
    else
      AtCons(n, Left, LeftmostPath(n.left));
      [Left] + LeftmostPath(n.left)
  }

  /** Keep taking the right link while there is one. */
  function RightmostPath(n: Subtree): (p: Path)
    requires n.Node?
    ensures IsNodeAt(n, p) && !HasRightSubtree(At(n, p))
    ensures forall i | 0 <= i < |p| :: p[i] == Right
    decreases n
  {
    if n.right.Nil? then []
    else
      AtCons(n, Right, RightmostPath(n.right));
      [Right] + RightmostPath(n.right)
  }

  /** Descend preferring the left link, else the right one, until a leaf. */
  function PostorderFirstPath(n: Subtree): (p: Path)
    requires n.Node?
    ensures IsNodeAt(n, p) && IsLeafNode(At(n, p))
    decreases n
  {
    if n.left.Node? then
      AtCons(n, Left, PostorderFirstPath(n.left));
      [Left] + PostorderFirstPath(n.left)
    else if n.right.Node? then
      AtCons(n, Right, PostorderFirstPath(n.right));
      [Right] + PostorderFirstPath(n.right)
    else []
  }

  /** Descend preferring the right link, else the left one, until a leaf. */
  function PreorderLastPath(n: Subtree): (p: Path)
    requires n.Node?
    ensures IsNodeAt(n, p) && IsLeafNode(At(n, p))
    decreases n
  {
    if n.right.Node? then
      AtCons(n, Right, PreorderLastPath(n.right));
      [Right] + PreorderLastPath(n.right)
    else if n.left.Node? then
      AtCons(n, Left, PreorderLastPath(n.left));
      [Left] + PreorderLastPath(n.left)
    else []
  }

  /** Where a forward iteration in order `o` starts; `None` for an empty tree. */
  function FindBeginNode(o: Order, root: Subtree): (r: Option<Path>)
    ensures r.None? <==> root.Nil?
    ensures r.Some? ==> IsNodeAt(root, r.value)
  {
    if root.Nil? then None
    else
      match o
      case Inorder => Some(LeftmostPath(root))
      case Preorder => Some([])
      case Postorder => Some(PostorderFirstPath(root))
  }

  /** Where a backward iteration in order `o` starts; `None` for an empty tree. */
  function FindRbeginNode(o: Order, root: Subtree): (r: Option<Path>)
    ensures r.None? <==> root.Nil?
    ensures r.Some? ==> IsNodeAt(root, r.value)
  {
    if root.Nil? then None
    else
      match o
      case Inorder => Some(RightmostPath(root))
      case Preorder => Some(PreorderLastPath(root))
      case Postorder => Some([])
  }
}

=== FILE: postorder_steps.dfy ===
/** Postorder successor and predecessor of a cell, computed only by following links.

    Forward: the root has no successor; a left child whose parent has a right child is
    followed by the postorder-first leaf of that right sibling subtree; every other
    cell is followed by its parent. Backward: the right child if there is one, else
    the left child, else climb while the cell climbed from is a left child or its
    parent has no left child, and take the left child of the parent where that stops.
 */
module PostorderSteps {
  import opened Wrappers
  import opened Nodes
  import opened Traversals

  /** The postorder step forward from the cell at `p`; `None` is the end position. */
  function Next(n: Subtree, p: Path): Option<Path>
    requires IsNodeAt(n, p)
  {
    if |p| == 0 then None
    else
      ParentIsNode(n, p);
      var parent := Parent(p);
      var up := At(n, parent);
      if LastStep(p) == Left && HasRightSubtree(up) then
        Some(parent + [Right] + PostorderFirstPath(up.right))
      else Some(parent)
  }

  /** Step `j` of `p` goes right from a cell that also has a left child: a climb through
      that step stops at the left sibling. */
  predicate OpensLeft(n: Subtree, p: Path, j: int)
    requires 0 <= j < |p|
  {
    p[j] == Right && At(n, p[..j]).Node? && At(n, p[..j]).left.Node?
  }

  /** Climb while the cell climbed from is a left child or has no left sibling; that sibling.
      It is the sibling at the deepest step of `p` that opens one, or null if none does. */
  function LeftSiblingAbove(n: Subtree, p: Path): (r: Option<Path>)
    requires IsNodeAt(n, p)
    ensures r.Some? ==> 0 < |r.value| <= |p| && LastStep(r.value) == Left
    ensures r.Some? ==> Parent(r.value) == p[..|r.value| - 1]
    ensures r.Some? ==> IsNodeAt(n, r.value)
    ensures r.Some? ==>
      && OpensLeft(n, p, |r.value| - 1)
      && forall j | |r.value| - 1 < j < |p| :: !OpensLeft(n, p, j)
    ensures r.None? <==> forall j | 0 <= j < |p| :: !OpensLeft(n, p, j)
    decreases |p|
  {
    if |p| == 0 then None
    else
      ParentIsNode(n, p);
      var parent := Parent(p);
      if LastStep(p) == Left || !HasLeftSubtree(At(n, parent)) then
        var r := LeftSiblingAbove(n, parent);
        assert !OpensLeft(n, p, |p| - 1);
        assert forall j | 0 <= j < |parent| :: parent[..j] == p[..j] && parent[j] == p[j];
        assert forall j | 0 <= j < |parent| :: OpensLeft(n, parent, j) == OpensLeft(n, p, j);
        assert r.Some? ==> parent[..|r.value| - 1] == p[..|r.value| - 1];
        r
      else
        AtSnoc(n, parent, Left);
        assert OpensLeft(n, p, |p| - 1);
        Some(parent + [Left])
  }

  /** The postorder step backward from the cell at `p`; `None` before the first cell. */
  function Prev(n: Subtree, p: Path): Option<Path>
    requires IsNodeAt(n, p)
  {
    var node := At(n, p);
    if HasRightSubtree(node) then Some(p + [Right])
    else if HasLeftSubtree(node) then Some(p + [Left])
    else LeftSiblingAbove(n, p)
  }

  // ---------------------------------------------------------------------------
  // The walks seen from one level up
  // ---------------------------------------------------------------------------

  lemma NextCons(n: Subtree, d: Dir, q: Path)
    requires n.Node? && IsNodeAt(Child(n, d), q)
    ensures IsNodeAt(n, [d] + q)
    ensures Next(n, [d] + q) ==
      if Next(Child(n, d), q).Some? then LiftOpt(d, Next(Child(n, d), q))
      else if d == Left && HasRightSubtree(n) then Some([Right] + PostorderFirstPath(n.right))
      else Some([])
  {
    AtCons(n, d, q);
    var p := [d] + q;
    if |q| == 0 {
      var e: Path := [];
      assert p == [d];
      assert Parent(p) == e;
      assert At(n, e) == n;
      if d == Left && HasRightSubtree(n) {
        assert e + [Right] + PostorderFirstPath(n.right) == [Right] + PostorderFirstPath(n.right);
      }
    } else {
      assert LastStep(p) == LastStep(q);
      assert Parent(p) == [d] + Parent(q);
      ParentIsNode(Child(n, d), q);
      AtCons(n, d, Parent(q));
      var up := At(n, Parent(p));
      if LastStep(q) == Left && HasRightSubtree(up) {
        var m := PostorderFirstPath(up.right);
        assert [d] + Parent(q) + [Right] + m == [d] + (Parent(q) + [Right] + m);
      }
    }
  }

  lemma {:induction false} LeftSiblingAboveCons(n: Subtree, d: Dir, q: Path)
    requires n.Node? && IsNodeAt(Child(n, d), q)
    ensures IsNodeAt(n, [d] + q)
    ensures LeftSiblingAbove(n, [d] + q) ==
      if LeftSiblingAbove(Child(n, d), q).Some? then LiftOpt(d, LeftSiblingAbove(Child(n, d), q))
      else if d == Right && HasLeftSubtree(n) then Some([Left]) else None
    decreases |q|
  {
    AtCons(n, d, q);
    if |q| == 0 {
      var e: Path := [];
      assert [d] + q == [d];
      assert Parent([d]) == e;
      assert At(n, e) == n;
      assert e + [Left] == [Left];
    } else {
      var p := [d] + q;
      assert LastStep(p) == LastStep(q);
      assert Parent(p) == [d] + Parent(q);
      ParentIsNode(Child(n, d), q);
      AtCons(n, d, Parent(q));
      assert [d] + Parent(q) + [Left] == [d] + (Parent(q) + [Left]);
      LeftSiblingAboveCons(n, d, Parent(q));
    }
  }

  lemma PrevCons(n: Subtree, d: Dir, q: Path)
    requires n.Node? && IsNodeAt(Child(n, d), q)
    ensures IsNodeAt(n, [d] + q)
    ensures Prev(n, [d] + q) ==
      if Prev(Child(n, d), q).Some? then LiftOpt(d, Prev(Child(n, d), q))
      else if d == Right && HasLeftSubtree(n) then Some([Left]) else None
  {
    AtCons(n, d, q);
    assert [d] + q + [Left] == [d] + (q + [Left]);
    assert [d] + q + [Right] == [d] + (q + [Right]);
    LeftSiblingAboveCons(n, d, q);
  }

  // ---------------------------------------------------------------------------
  // Correctness against the postorder sequence
  // ---------------------------------------------------------------------------

  /** The forward walk from the i-th postorder cell reaches the (i+1)-th, or the end after the last. */
  lemma {:induction false} NextIsSuccessor(n: Subtree, i: nat)
    requires i < Size(n)
    ensures IsNodeAt(n, PostorderPaths(n)[i])
    ensures Next(n, PostorderPaths(n)[i]) == After(PostorderPaths(n), i)
  {
    var s := PostorderPaths(n);
    var l, r := n.left, n.right;
    var a, b := Size(l), Size(r);
    var e: Path := [];
    if i < a {
      var q := PostorderPaths(l)[i];
      NextIsSuccessor(l, i);
      assert s[i] == [Left] + q;
      NextCons(n, Left, q);
      if i + 1 < a {
        assert s[i + 1] == [Left] + PostorderPaths(l)[i + 1];
      } else if r.Node? {
        PostorderFirstPathIsFirst(r);
        assert s[i + 1] == [Right] + PostorderPaths(r)[0];
      } else {
        assert s[i + 1] == e;
      }
    } else if i < a + b {
      var j := i - a;
      var q := PostorderPaths(r)[j];
      NextIsSuccessor(r, j);
      assert s[i] == [Right] + q;
      NextCons(n, Right, q);
      if j + 1 < b {
        assert s[i + 1] == [Right] + PostorderPaths(r)[j + 1];
      } else {
        assert s[i + 1] == e;
      }
    } else {
      assert s[i] == e;
      assert At(n, e) == n;
    }
  }

  /** The backward walk from the i-th postorder cell reaches the (i-1)-th, or null before the first. */
  lemma {:induction false} PrevIsPredecessor(n: Subtree, i: nat)
    requires i < Size(n)
    ensures IsNodeAt(n, PostorderPaths(n)[i])
    ensures Prev(n, PostorderPaths(n)[i]) == Before(PostorderPaths(n), i)
  {
    var s := PostorderPaths(n);
    var l, r := n.left, n.right;
    var a, b := Size(l), Size(r);
    var e: Path := [];
    if i < a {
      var q := PostorderPaths(l)[i];
      PrevIsPredecessor(l, i);
      assert s[i] == [Left] + q;
      PrevCons(n, Left, q);
      if i > 0 {
        assert s[i - 1] == [Left] + PostorderPaths(l)[i - 1];
      }
    } else if i < a + b {
      var j := i - a;
      var q := PostorderPaths(r)[j];
      PrevIsPredecessor(r, j);
      assert s[i] == [Right] + q;
      PrevCons(n, Right, q);
      if j > 0 {
        assert s[i - 1] == [Right] + PostorderPaths(r)[j - 1];
      } else if l.Node? {
        assert PostorderPaths(l)[a - 1] == e;
        assert s[i - 1] == [Left] + e;
        assert [Left] + e == [Left];
      }
    } else {
      assert s[i] == e;
      assert At(n, e) == n;
      if r.Node? {
        assert PostorderPaths(r)[b - 1] == e;
        assert s[i - 1] == [Right] + e;
        assert e + [Right] == [Right] + e;
      } else if l.Node? {
        assert PostorderPaths(l)[a - 1] == e;
        assert s[i - 1] == [Left] + e;
        assert e + [Left] == [Left] + e;
      }
    }
  }
}

=== FILE: preorder_steps.dfy ===
/** Preorder successor and predecessor of a cell, computed only by following links.

    Forward: the left child if there is one, else the right child, else climb until
    the cell climbed from is a left child whose parent has a right child, and take
    that right child. Backward (never asked of the root, whose parent link the library
    dereferences): the parent when climbing from a left child or from a right child
    with no left sibling, otherwise the preorder-last leaf of the left sibling subtree.
 */
module PreorderSteps {
  import opened Wrappers
  import opened Nodes
  import opened Traversals

  /** Step `j` of `p` goes left from a cell that also has a right child: a climb through
      that step stops at the right sibling. */
  predicate OpensRight(n: Subtree, p: Path, j: int)
    requires 0 <= j < |p|
  {
    p[j] == Left && At(n, p[..j]).Node? && At(n, p[..j]).right.Node?
  }

  /** Climb until the cell climbed from is a left child with a right sibling; that sibling.
      It is the sibling at the deepest step of `p` that opens one, or null if none does. */
  function RightSiblingAbove(n: Subtree, p: Path): (r: Option<Path>)
    requires IsNodeAt(n, p)
    ensures r.Some? ==> 0 < |r.value| <= |p| && LastStep(r.value) == Right
    ensures r.Some? ==> Parent(r.value) == p[..|r.value| - 1]
    ensures r.Some? ==> IsNodeAt(n, r.value)
    ensures r.Some? ==>
      && OpensRight(n, p, |r.value| - 1)
      && forall j | |r.value| - 1 < j < |p| :: !OpensRight(n, p, j)
    ensures r.None? <==> forall j | 0 <= j < |p| :: !OpensRight(n, p, j)
    decreases |p|
  {
    if |p| == 0 then None
    else
      ParentIsNode(n, p);
      var parent := Parent(p);
      if LastStep(p) == Left && HasRightSubtree(At(n, parent)) then
        AtSnoc(n, parent, Right);
        assert OpensRight(n, p, |p| - 1);
        Some(parent + [Right])
      else
        var r := RightSiblingAbove(n, parent);
        assert !OpensRight(n, p, |p| - 1);
        assert forall j | 0 <= j < |parent| :: parent[..j] == p[..j] && parent[j] == p[j];
        assert forall j | 0 <= j < |parent| :: OpensRight(n, parent, j) == OpensRight(n, p, j);
        assert r.Some? ==> parent[..|r.value| - 1] == p[..|r.value| - 1];
        r
  }

  /** The preorder step forward from the cell at `p`; `None` is the end position. */
  function Next(n: Subtree, p: Path): Option<Path>
    requires IsNodeAt(n, p)
  {
    var node := At(n, p);
    if HasLeftSubtree(node) then Some(p + [Left])
    else if HasRightSubtree(node) then Some(p + [Right])
    else RightSiblingAbove(n, p)
  }

  /** The preorder step backward from the non-root cell at `p`. */
  function Prev(n: Subtree, p: Path): Option<Path>
    requires IsNodeAt(n, p) && |p| > 0
  {
    ParentIsNode(n, p);
    var parent := Parent(p);
    var up := At(n, parent);
    if LastStep(p) == Left then Some(parent)
    else if !HasLeftSubtree(up) then Some(parent)
    else Some(parent + [Left] + PreorderLastPath(up.left))
  }

  // ---------------------------------------------------------------------------
  // The walks seen from one level up
  // ---------------------------------------------------------------------------

  lemma {:induction false} RightSiblingAboveCons(n: Subtree, d: Dir, q: Path)
    requires n.Node? && IsNodeAt(Child(n, d), q)
    ensures IsNodeAt(n, [d] + q)
    ensures RightSiblingAbove(n, [d] + q) ==
      if RightSiblingAbove(Child(n, d), q).Some? then LiftOpt(d, RightSiblingAbove(Child(n, d), q))
      else if d == Left && HasRightSubtree(n) then Some([Right]) else None
    decreases |q|
  {
    AtCons(n, d, q);
    if |q| == 0 {
      assert [d] + q == [d];
      assert Parent([d]) == [];
    } else {
      var p := [d] + q;
      assert LastStep(p) == LastStep(q);
      assert Parent(p) == [d] + Parent(q);
      ParentIsNode(Child(n, d), q);
      AtCons(n, d, Parent(q));
      assert [d] + Parent(q) + [Right] == [d] + (Parent(q) + [Right]);
      RightSiblingAboveCons(n, d, Parent(q));
    }
  }

  lemma NextCons(n: Subtree, d: Dir, q: Path)
    requires n.Node? && IsNodeAt(Child(n, d), q)
    ensures IsNodeAt(n, [d] + q)
    ensures Next(n, [d] + q) ==
      if Next(Child(n, d), q).Some? then LiftOpt(d, Next(Child(n, d), q))
      else if d == Left && HasRightSubtree(n) then Some([Right]) else None
  {
    AtCons(n, d, q);
    assert [d] + q + [Left] == [d] + (q + [Left]);
    assert [d] + q + [Right] == [d] + (q + [Right]);
    RightSiblingAboveCons(n, d, q);
  }

  lemma PrevCons(n: Subtree, d: Dir, q: Path)
    requires n.Node? && IsNodeAt(Child(n, d), q) && |q| > 0
    ensures IsNodeAt(n, [d] + q)
    ensures Prev(n, [d] + q) == LiftOpt(d, Prev(Child(n, d), q))
  {
    AtCons(n, d, q);
    var p := [d] + q;
    assert LastStep(p) == LastStep(q);
    assert Parent(p) == [d] + Parent(q);
    ParentIsNode(Child(n, d), q);
    AtCons(n, d, Parent(q));
    var up := At(n, Parent(p));
    if up.left.Node? {
      var m := PreorderLastPath(up.left);
      assert [d] + Parent(q) + [Left] + m == [d] + (Parent(q) + [Left] + m);
    }
  }

  /** Backward from a child of the root. */
  lemma PrevOfRootChild(n: Subtree, d: Dir)
    requires n.Node? && Child(n, d).Node?
    ensures IsNodeAt(n, [d])
    ensures Prev(n, [d]) ==
      if d == Left || !HasLeftSubtree(n) then Some([]) else Some([Left] + PreorderLastPath(n.left))
  {
    AtCons(n, d, []);
    assert [d] + [] == [d];
    assert Parent([d]) == [];
    assert LastStep([d]) == d;
    if d == Right && HasLeftSubtree(n) {
      assert [] + [Left] + PreorderLastPath(n.left) == [Left] + PreorderLastPath(n.left);
    }
  }

  // ---------------------------------------------------------------------------
  // Correctness against the preorder sequence
  // ---------------------------------------------------------------------------

  /** The forward walk from the i-th preorder cell reaches the (i+1)-th, or the end after the last. */
  lemma {:induction false} NextIsSuccessor(n: Subtree, i: nat)
    requires i < Size(n)
    ensures IsNodeAt(n, PreorderPaths(n)[i])
    ensures Next(n, PreorderPaths(n)[i]) == After(PreorderPaths(n), i)
  {
    var s := PreorderPaths(n);
    var l, r := n.left, n.right;
    var a := Size(l);
    if i == 0 {
      var e: Path := [];
      assert s[0] == e;
      assert At(n, e) == n;
      if l.Node? {
        assert PreorderPaths(l)[0] == e;
        assert s[1] == [Left] + e;
        assert e + [Left] == [Left] + e;
      } else if r.Node? {
        assert PreorderPaths(r)[0] == e;
        assert s[1] == [Right] + e;
        assert e + [Right] == [Right] + e;
      }
    } else if i <= a {
      var q := PreorderPaths(l)[i - 1];
      NextIsSuccessor(l, i - 1);
      assert s[i] == [Left] + q;
      NextCons(n, Left, q);
      if i < a {
        assert s[i + 1] == [Left] + PreorderPaths(l)[i];
      } else if r.Node? {
        var e: Path := [];
        assert PreorderPaths(r)[0] == e;
        assert s[i + 1] == [Right] + e;
        assert [Right] + e == [Right];
      }
    } else {
      var j := i - a - 1;
      var q := PreorderPaths(r)[j];
      NextIsSuccessor(r, j);
      assert s[i] == [Right] + q;
      NextCons(n, Right, q);
      if j + 1 < Size(r) {
        assert s[i + 1] == [Right] + PreorderPaths(r)[j + 1];
      }
    }
  }

  /** The backward walk from the i-th preorder cell (i > 0, so not the root) reaches the (i-1)-th. */
  lemma {:induction false} PrevIsPredecessor(n: Subtree, i: nat)
    requires 0 < i < Size(n)
    ensures IsNodeAt(n, PreorderPaths(n)[i]) && |PreorderPaths(n)[i]| > 0
    ensures Prev(n, PreorderPaths(n)[i]) == Some(PreorderPaths(n)[i - 1])
  {
    var s := PreorderPaths(n);
    var l, r := n.left, n.right;
    var a := Size(l);
    if i <= a {
      var q := PreorderPaths(l)[i - 1];
      assert s[i] == [Left] + q;
      if i == 1 {
        assert q == [];
        PrevOfRootChild(n, Left);
      } else {
        PrevIsPredecessor(l, i - 1);
        PrevCons(n, Left, q);
        assert s[i - 1] == [Left] + PreorderPaths(l)[i - 2];
      }
    } else {
      var j := i - a - 1;
      var q := PreorderPaths(r)[j];
      assert s[i] == [Right] + q;
      if j == 0 {
        assert q == [];
        PrevOfRootChild(n, Right);
        if l.Node? {
          PreorderLastPathIsLast(l);
          assert s[i - 1] == [Left] + PreorderPaths(l)[a - 1];
        } else {
          assert s[i - 1] == [];
        }
      } else {
        PrevIsPredecessor(r, j);
        PrevCons(n, Right, q);
        assert s[i - 1] == [Right] + PreorderPaths(r)[j - 1];
      }
    }
  }
}

=== FILE: sets.dfy ===
/** The ordered-set facade over the search tree.

    A set owns a tree and caches the first and last cells of its iteration order;
    every mutation recomputes both caches from the new root. Iterators pair the
    current root with a position, the end position being null; a reverse iterator
    wraps a forward one and reads the cell just before it.
 */
module Sets {
  import opened Wrappers
  import opened Nodes
  import opened Traversals
  import opened TreeIterator
  import Trees

  /** The tree, the iteration order fixed by the set's type, and the two cached cells. */
  datatype OrderedSet = OrderedSet(order: Order, tree: Trees.Tree, beginNode: Option<Path>, rbeginNode: Option<Path>)
  {
    /** The tree invariant, and both caches agree with the current root. */
    predicate Valid()
    {
      && tree.Valid()
      && beginNode == FindBeginNode(order, tree.root)
      && rbeginNode == FindRbeginNode(order, tree.root)
    }
  }

  /** The keys the set holds. */
  function Elements(s: OrderedSet): set<int>
  {
    Trees.Keys(s.tree.root)
  }

  /** Refill both caches from the tree's current root. */
  function Refresh(order: Order, t: Trees.Tree): (r: OrderedSet)
    requires t.Valid()
    ensures r.Valid() && r.order == order && r.tree == t
  {
    OrderedSet(order, t, FindBeginNode(order, t.root), FindRbeginNode(order, t.root))
  }

  /** The default constructor: an empty tree and both caches null. */
  function EmptySet(order: Order): (r: OrderedSet)
    ensures r.Valid() && r.order == order
    ensures Elements(r) == {}
    ensures Begin(r) == End(r)
  {
    OrderedSet(order, Trees.EmptyTree(), None, None)
  }

  /** The copy constructor: a copied tree, caches recomputed. */
  function CopySet(s: OrderedSet): (r: OrderedSet)
    requires s.tree.Valid()
    ensures r.Valid() && r.order == s.order
    ensures Elements(r) == Elements(s)
    ensures s.Valid() ==> r == s
  {
    Refresh(s.order, Trees.CopyTree(s.tree))
  }

  // ---------------------------------------------------------------------------
  // Queries
  // ---------------------------------------------------------------------------

  /** `contains(key)`: the tree's search finds a cell. */
  function Contains(s: OrderedSet, k: int): (r: bool)
    requires s.Valid()
    ensures r <==> k in Elements(s)
  {
    Trees.Find(s.tree, k).Some?
  }

  /** `empty()`. */
  function IsEmpty(s: OrderedSet): (r: bool)
    requires s.Valid()
    ensures r <==> Elements(s) == {}
  {
    Trees.IsEmpty(s.tree)
  }

  /** `size()`: the tree's counter, which is the number of elements. */
  function Cardinality(s: OrderedSet): (r: nat)
    requires s.Valid()
    ensures r == |Elements(s)|
  {
    Trees.SizeIsKeyCount(s.tree);
    s.tree.size
  }

  /** `operator==`: the trees compare equal, i.e. the sets hold the same keys. */
  function Equal(a: OrderedSet, b: OrderedSet): (r: bool)
    requires a.Valid() && b.Valid()
    ensures r <==> Elements(a) == Elements(b)
  {
    Trees.Equal(a.tree, b.tree)
  }

  // ---------------------------------------------------------------------------
  // Mutations
  // ---------------------------------------------------------------------------

  /** `insert(key)`: the updated set, the cell holding `key` (the new leaf, or the cell that
      already held it), and whether the counter grew. */
  function Insert(s: OrderedSet, k: int): (r: (OrderedSet, Path, bool))
    requires s.Valid()
    ensures r.0.Valid() && r.0.order == s.order
    ensures Elements(r.0) == Elements(s) + {k}
    ensures r.2 <==> k !in Elements(s)
    ensures !r.2 ==> r.0 == s && Trees.Find(s.tree, k) == Some(r.1)
    ensures IsNodeAt(r.0.tree.root, r.1) && At(r.0.tree.root, r.1).key == k
  {
    var startSize := s.tree.size;
    var (t', p) := Trees.Insert(s.tree, k);
    var inserted := startSize != t'.size;
    (Refresh(s.order, t'), p, inserted)
  }

  /** `erase(key)`: the updated set and whether a cell was removed. */
  function Erase(s: OrderedSet, k: int): (r: (OrderedSet, bool))
    requires s.Valid()
    ensures r.0.Valid() && r.0.order == s.order
    ensures Elements(r.0) == Elements(s) - {k}
    ensures r.1 <==> k in Elements(s)
    ensures !r.1 ==> r.0 == s
  {
    var (t', removed) := Trees.Remove(s.tree, k);
    (Refresh(s.order, t'), removed)
  }

  /** Erasing a key just inserted restores the set exactly, cell for cell. */
  lemma EraseUndoesInsert(s: OrderedSet, k: int)
    requires s.Valid() && k !in Elements(s)
    ensures Erase(Insert(s, k).0, k) == (s, true)
  {
    Trees.RemoveUndoesInsert(s.tree, k);
  }

  // ---------------------------------------------------------------------------
  // Iterators
  // ---------------------------------------------------------------------------

  /** `begin()`: the cached first cell; the first position of the order. */
  function Begin(s: OrderedSet): (r: Iterator)
    requires s.Valid()
    ensures r.order == s.order && r.root == s.tree.root
    ensures r.node ==
      if Elements(s) == {} then None else Some(Traversal(s.order, s.tree.root)[0])
  {
    BeginIsFirst(s.order, s.tree.root);
    Trees.SizeIsKeyCount(s.tree);
    Iterator(s.order, s.tree.root, s.beginNode)
  }

  /** `end()`: the null position. */
  function End(s: OrderedSet): Iterator
  {
    Iterator(s.order, s.tree.root, None)
  }

  /** `std::reverse_iterator` over the set's iterator: it reads the cell before `base`. */
  datatype ReverseIterator = ReverseIterator(base: Iterator)

  /** `rbegin()`: a reverse iterator whose base is the end position. */
  function RBegin(s: OrderedSet): (r: ReverseIterator)
  {
    ReverseIterator(End(s))
  }

  /** `rend()`: a reverse iterator whose base is the first cell. */
  function REnd(s: OrderedSet): (r: ReverseIterator)
    requires s.Valid()
  {
    ReverseIterator(Begin(s))
  }

  /** Reverse `operator*`: the key of the cell before the base. */
  function RDeref(rit: ReverseIterator): int
    requires CanStepBack(rit.base.order, rit.base.root, rit.base.node)
    requires Dereferenceable(Decrement(rit.base))
  {
    Deref(Decrement(rit.base))
  }

  /** Reverse `operator++`: the base steps backward. */
  function RIncrement(rit: ReverseIterator): ReverseIterator
    requires CanStepBack(rit.base.order, rit.base.root, rit.base.node)
  {
    ReverseIterator(Decrement(rit.base))
  }

  /** The `rbegin()` of a non-empty set reads the last key of the order, that is the key
      of the cached rbegin cell. */
  lemma RBeginReadsLast(s: OrderedSet)
    requires s.Valid() && Elements(s) != {}
    ensures CanStepBack(s.order, s.tree.root, RBegin(s).base.node)
    ensures Dereferenceable(Decrement(RBegin(s).base))
    ensures Decrement(RBegin(s).base).node == s.rbeginNode
    ensures RDeref(RBegin(s)) == TraversalKeys(s.order, s.tree.root)[Size(s.tree.root) - 1]
  {
    var n := s.tree.root;
    RbeginIsLast(s.order, n);
    TraversalKeysAt(s.order, n, Size(n) - 1);
  }

  // ---------------------------------------------------------------------------
  // Whole iterations
  // ---------------------------------------------------------------------------

  /** A range-for over the set: from `begin()` with `++` until `end()`; the keys met are
      the order's key sequence. */
  method IterateForward(s: OrderedSet) returns (keys: seq<int>)
    requires s.Valid()
    ensures keys == TraversalKeys(s.order, s.tree.root)
  {
    var n := s.tree.root;
    ghost var ps := Traversal(s.order, n);
    var it := Begin(s);
    Trees.SizeIsKeyCount(s.tree);
    keys := [];
    ghost var i := 0;
    while it != End(s)
      invariant 0 <= i <= |ps|
      invariant it == Iterator(s.order, n, if i < |ps| then Some(ps[i]) else None)
      invariant keys == TraversalKeys(s.order, n)[..i]
      decreases |ps| - i
    {
      TraversalKeysAt(s.order, n, i);
      NextNodeIsSuccessor(s.order, n, i);
      keys := keys + [Deref(it)];
      it := Increment(it);
      i := i + 1;
    }
    assert i == |ps|;
  }

  /** A loop from `rbegin()` with reverse `++` until `rend()`; the keys met are the order's
      key sequence back to front. */
  method IterateBackward(s: OrderedSet) returns (keys: seq<int>)
    requires s.Valid()
    ensures |keys| == |TraversalKeys(s.order, s.tree.root)|
    ensures forall j | 0 <= j < |keys| ::
      keys[j] == TraversalKeys(s.order, s.tree.root)[|keys| - 1 - j]
  {
    var n := s.tree.root;
    ghost var ps := Traversal(s.order, n);
    ghost var m := |ps|;
    BeginIsFirst(s.order, n);
    TraversalDistinct(s.order, n);
    var rit := RBegin(s);
    keys := [];
    ghost var i := 0;
    while rit != REnd(s)
      invariant 0 <= i <= m
      invariant rit.base == Iterator(s.order, n, if i == 0 then None else Some(ps[m - i]))
      invariant |keys| == i
      invariant forall j | 0 <= j < i :: keys[j] == TraversalKeys(s.order, n)[m - 1 - j]
      decreases m - i
    {
      if i == 0 {
        PrevOfEndIsLast(s.order, n);
      } else {
        PrevNodeIsPredecessor(s.order, n, m - i);
      }
      TraversalKeysAt(s.order, n, m - 1 - i);
      keys := keys + [RDeref(rit)];
      rit := RIncrement(rit);
      i := i + 1;
    }
  }

  // ---------------------------------------------------------------------------
  // The scenarios the library's own test suite exercises
  // ---------------------------------------------------------------------------

  /** Inserting 5, 3 and 6 builds the tree with 5 at the root and 3, 6 as its children,
      which each order walks in its own sequence, forward and backward. */
  method IterationExample(o: Order) returns (forward: seq<int>, backward: seq<int>)
    ensures o == Inorder ==> forward == [3, 5, 6] && backward == [6, 5, 3]
    ensures o == Preorder ==> forward == [5, 3, 6] && backward == [6, 3, 5]
    ensures o == Postorder ==> forward == [3, 6, 5] && backward == [5, 6, 3]
  {
    var s := Insert(Insert(Insert(EmptySet(o), 5).0, 3).0, 6).0;
    assert s.tree.root == Node(Node(Nil, 3, Nil), 5, Node(Nil, 6, Nil));
    forward := IterateForward(s);
    backward := IterateBackward(s);
    assert |backward| == 3;
    assert backward == [backward[0], backward[1], backward[2]];
  }

  /** A second insertion of 5 reports false, a first insertion of 6 reports true. */
  lemma InsertExample()
    ensures var s0 := Insert(EmptySet(Inorder), 5).0;
      var (s1, _, p1) := Insert(s0, 5);
      var (s2, _, p2) := Insert(s1, 6);
      && Contains(s2, 5) && !Contains(s2, 9) && !p1 && p2
  {
  }

  /** After erasing 5 from {5, 8}, 8 remains, 5 is gone, and erasing the absent 7 fails. */
  lemma EraseExample()
    ensures var s := Insert(Insert(EmptySet(Inorder), 5).0, 8).0;
      var (s1, _) := Erase(s, 5);
      var (s2, erased) := Erase(s1, 7);
      && Contains(s2, 8) && !Contains(s2, 5) && !erased
  {
  }

  /** {5, 3, 6} differs from {5, 6} until 3 is erased. */
  lemma EqualityExample()
    ensures var s := Insert(Insert(Insert(EmptySet(Inorder), 5).0, 3).0, 6).0;
      var r := Insert(Insert(EmptySet(Inorder), 5).0, 6).0;
      && !Equal(s, r)
      && Equal(Erase(s, 3).0, r)
  {
  }

  /** A copy of {5, 3, 6} contains 5, 3 and 6 but not 1. */
  lemma CopyExample()
    ensures var s := Insert(Insert(Insert(EmptySet(Inorder), 5).0, 3).0, 6).0;
      var r := CopySet(s);
      && Contains(r, 5) && Contains(r, 3) && Contains(r, 6) && !Contains(r, 1)
  {
  }
}

=== FILE: traversals.dfy ===
/** The reference definitions of the three depth-first orders.

    Each order is a sequence of node paths, built recursively from the orders of the
    two children: inorder is left-root-right, preorder root-left-right, postorder
    left-right-root. The iterator steps, which only follow links, are proved against
    these sequences.
 */
module Traversals {
  import opened Wrappers
  import opened Nodes

  /** Every path of `ps`, seen from one level up through the step `d`. */
  function Lift(d: Dir, ps: seq<Path>): (r: seq<Path>)
    ensures |r| == |ps|
    ensures forall i | 0 <= i < |ps| :: r[i] == [d] + ps[i]
  {
    seq(|ps|, i requires 0 <= i < |ps| => [d] + ps[i])
  }

  /** An optional path, seen from one level up through the step `d`. */
  function LiftOpt(d: Dir, o: Option<Path>): Option<Path>
  {
    match o
    case None => None
    case Some(p) => Some([d] + p)
  }

  function InorderPaths(n: Subtree): (s: seq<Path>)
    ensures |s| == Size(n)
  {
    match n
    case Nil => []
    case Node(l, _, r) => Lift(Left, InorderPaths(l)) + [[]] + Lift(Right, InorderPaths(r))
  }

  function PreorderPaths(n: Subtree): (s: seq<Path>)
    ensures |s| == Size(n)
  {
    match n
    case Nil => []
    case Node(l, _, r) => [[]] + Lift(Left, PreorderPaths(l)) + Lift(Right, PreorderPaths(r))
  }

  function PostorderPaths(n: Subtree): (s: seq<Path>)
    ensures |s| == Size(n)
  {
    match n
    case Nil => []
    case Node(l, _, r) => Lift(Left, PostorderPaths(l)) + Lift(Right, PostorderPaths(r)) + [[]]
  }

  /** The sequence of positions an iteration in order `o` visits. */
  function Traversal(o: Order, n: Subtree): seq<Path>
  {
    match o
    case Inorder => InorderPaths(n)
    case Preorder => PreorderPaths(n)
    case Postorder => PostorderPaths(n)
  }

  /** The position after index `i` of `s`; `None` (the end position) after the last one. */
  function After(s: seq<Path>, i: nat): Option<Path>
    requires i < |s|
  {
    if i + 1 < |s| then Some(s[i + 1]) else None
  }

  /** The position before index `i` of `s`; `None` before the first one. */
  function Before(s: seq<Path>, i: nat): Option<Path>
    requires i < |s|
  {
    if i > 0 then Some(s[i - 1]) else None
  }

  predicate Distinct(s: seq<Path>)
  {
    forall i, j | 0 <= i < |s| && 0 <= j < |s| && i != j :: s[i] != s[j]
  }

  /** The keys an iteration in order `o` yields, defined directly on the tree. */
  function TraversalKeys(o: Order, n: Subtree): (ks: seq<int>)
    ensures |ks| == Size(n)
  {
    match n
    case Nil => []
    case Node(l, k, r) =>
      match o
      case Inorder => TraversalKeys(o, l) + [k] + TraversalKeys(o, r)
      case Preorder => [k] + TraversalKeys(o, l) + TraversalKeys(o, r)
      case Postorder => TraversalKeys(o, l) + TraversalKeys(o, r) + [k]
  }

  // ---------------------------------------------------------------------------
  // Lift
  // ---------------------------------------------------------------------------

  lemma LiftMember(d: Dir, ps: seq<Path>, p: Path)
    requires p in Lift(d, ps)
    ensures |p| > 0 && p[0] == d && p[1..] in ps
  {
    var i :| 0 <= i < |ps| && Lift(d, ps)[i] == p;
    assert p[1..] == ps[i];
  }

  lemma LiftContains(d: Dir, ps: seq<Path>, q: Path)
    requires q in ps
    ensures [d] + q in Lift(d, ps)
  {
    var i :| 0 <= i < |ps| && ps[i] == q;
    assert Lift(d, ps)[i] == [d] + q;
  }

  lemma LiftDistinct(d: Dir, ps: seq<Path>)
    requires Distinct(ps)
    ensures Distinct(Lift(d, ps))
  {
    var s := Lift(d, ps);
    forall i, j | 0 <= i < |s| && 0 <= j < |s| && i != j
      ensures s[i] != s[j]
    {
      assert s[i][1..] == ps[i];
      assert s[j][1..] == ps[j];
    }
  }

  lemma DistinctConcat(a: seq<Path>, b: seq<Path>)
    requires Distinct(a) && Distinct(b)
    requires forall p | p in a :: p !in b
    ensures Distinct(a + b)
  {
    var s := a + b;
    forall i, j | 0 <= i < |s| && 0 <= j < |s| && i != j
      ensures s[i] != s[j]
    {
      if i < |a| && |a| <= j {
        assert s[i] in a;
        assert s[j] == b[j - |a|];
      } else if j < |a| && |a| <= i {
        assert s[j] in a;
        assert s[i] == b[i - |a|];
      }
    }
  }

  // ---------------------------------------------------------------------------
  // Each order lists every cell exactly once
  // ---------------------------------------------------------------------------

  /** Every position of a traversal is a cell of the tree. */
  lemma {:induction false} TraversalNodes(o: Order, n: Subtree)
    ensures forall p | p in Traversal(o, n) :: IsNodeAt(n, p)
  {
    if n.Node? {
      TraversalNodes(o, n.left);
      TraversalNodes(o, n.right);
      forall p | p in Traversal(o, n)
        ensures IsNodeAt(n, p)
      {
        if p != [] {
          var d: Dir;
          if p in Lift(Left, Traversal(o, n.left)) {
            d := Left;
          } else {
            d := Right;
          }
          LiftMember(d, Traversal(o, Child(n, d)), p);
          assert p == [d] + p[1..];
          AtCons(n, d, p[1..]);
        }
      }
    }
  }

  /** Every cell of the tree occurs in each traversal. */
  lemma {:induction false} TraversalCovers(o: Order, n: Subtree, p: Path)
    requires IsNodeAt(n, p)
    ensures p in Traversal(o, n)
    decreases |p|
  {
    if p == [] {
      assert Traversal(o, n)[if o == Inorder then Size(n.left) else if o == Preorder then 0 else Size(n) - 1] == [];
    } else {
      var d, q := p[0], p[1..];
      assert p == [d] + q;
      AtCons(n, d, q);
      TraversalCovers(o, Child(n, d), q);
      LiftContains(d, Traversal(o, Child(n, d)), q);
    }
  }

  /** No cell occurs twice in a traversal. */
  lemma {:induction false} TraversalDistinct(o: Order, n: Subtree)
    ensures Distinct(Traversal(o, n))
  {
    if n.Node? {
      TraversalDistinct(o, n.left);
      TraversalDistinct(o, n.right);
      var a := Lift(Left, Traversal(o, n.left));
      var b := Lift(Right, Traversal(o, n.right));
      LiftDistinct(Left, Traversal(o, n.left));
      LiftDistinct(Right, Traversal(o, n.right));
      forall p | p in a
        ensures p !in b && p != []
      {
        LiftMember(Left, Traversal(o, n.left), p);
        if p in b {
          LiftMember(Right, Traversal(o, n.right), p);
        }
      }
      forall p | p in b
        ensures p != []
      {
        LiftMember(Right, Traversal(o, n.right), p);
      }
      match o
      case Inorder =>
        DistinctConcat(a, [[]]);
        DistinctConcat(a + [[]], b);
      case Preorder =>
        DistinctConcat([[]], a);
        DistinctConcat([[]] + a, b);
      case Postorder =>
        DistinctConcat(a, b);
        DistinctConcat(a + b, [[]]);
    }
  }

  // ---------------------------------------------------------------------------
  // The descents reach the first and last positions
  // ---------------------------------------------------------------------------

  lemma {:induction false} LeftmostIsInorderFirst(n: Subtree)
    requires n.Node?
    ensures InorderPaths(n)[0] == LeftmostPath(n)
  {
    if n.left.Node? {
      LeftmostIsInorderFirst(n.left);
    }
  }

  lemma {:induction false} RightmostIsInorderLast(n: Subtree)
    requires n.Node?
    ensures InorderPaths(n)[Size(n) - 1] == RightmostPath(n)
  {
    if n.right.Node? {
      RightmostIsInorderLast(n.right);
    }
  }

  lemma {:induction false} PostorderFirstPathIsFirst(n: Subtree)
    requires n.Node?
    ensures PostorderPaths(n)[0] == PostorderFirstPath(n)
  {
    if n.left.Node? {
      PostorderFirstPathIsFirst(n.left);
    } else if n.right.Node? {
      PostorderFirstPathIsFirst(n.right);
    }
  }

  lemma {:induction false} PreorderLastPathIsLast(n: Subtree)
    requires n.Node?
    ensures PreorderPaths(n)[Size(n) - 1] == PreorderLastPath(n)
  {
    if n.right.Node? {
      PreorderLastPathIsLast(n.right);
    } else if n.left.Node? {
      PreorderLastPathIsLast(n.left);
    }
  }

  /** The begin function of each order yields the first position of that order, or null. */
  lemma {:induction false} BeginIsFirst(o: Order, n: Subtree)
    ensures FindBeginNode(o, n) == if Size(n) == 0 then None else Some(Traversal(o, n)[0])
  {
    if n.Node? {
      match o
      case Inorder => LeftmostIsInorderFirst(n);
      case Preorder =>
      case Postorder => PostorderFirstPathIsFirst(n);
    }
  }

  /** The rbegin function of each order yields the last position of that order, or null. */
  lemma {:induction false} RbeginIsLast(o: Order, n: Subtree)
    ensures FindRbeginNode(o, n) == if Size(n) == 0 then None else Some(Traversal(o, n)[Size(n) - 1])
  {
    if n.Node? {
      match o
      case Inorder => RightmostIsInorderLast(n);
      case Preorder => PreorderLastPathIsLast(n);
      case Postorder =>
    }
  }

  /** The i-th key of an order is the key held by the cell at the i-th position. */
  lemma {:induction false} TraversalKeysAt(o: Order, n: Subtree, i: nat)
    requires i < Size(n)
    ensures IsNodeAt(n, Traversal(o, n)[i])
    ensures TraversalKeys(o, n)[i] == At(n, Traversal(o, n)[i]).key
  {
    var s, ks := Traversal(o, n), TraversalKeys(o, n);
    var l, r := n.left, n.right;
    var a, b := Size(l), Size(r);
    // index of the root and offsets of the two children's blocks in this order
    var (root, lo, ro) :=
      match o
      case Inorder => (a, 0, a + 1)
      case Preorder => (0, 1, a + 1)
      case Postorder => (a + b, 0, a);
    if i == root {
      var e: Path := [];
      assert s[i] == e;
      assert At(n, e) == n;
    } else if lo <= i < lo + a {
      TraversalKeysAt(o, l, i - lo);
      assert s[i] == [Left] + Traversal(o, l)[i - lo];
      assert ks[i] == TraversalKeys(o, l)[i - lo];
      AtCons(n, Left, Traversal(o, l)[i - lo]);
    } else {
      TraversalKeysAt(o, r, i - ro);
      assert s[i] == [Right] + Traversal(o, r)[i - ro];
      assert ks[i] == TraversalKeys(o, r)[i - ro];
      AtCons(n, Right, Traversal(o, r)[i - ro]);
    }
  }
}

=== FILE: tree.dfy ===
/** The binary search tree engine: insert, remove, find, copy and key-set equality.

    A `Tree` is the root subtree with the cardinality counter the operations keep.
    Its invariant is the binary-search ordering plus "the counter equals the number
    of cells". Parent back-links are not stored: a cell's parent is its path prefix,
    so re-pointing a child's parent link on removal has no separate counterpart here.
 */
module Trees {
  import opened Wrappers
  import opened Nodes
  import opened Traversals

  function Keys(n: Subtree): set<int>
  {
    match n
    case Nil => {}
    case Node(l, k, r) => Keys(l) + {k} + Keys(r)
  }

  /** Every key in a left subtree is smaller, every key in a right subtree larger. */
  predicate IsBst(n: Subtree)
  {
    match n
    case Nil => true
    case Node(l, k, r) =>
      && IsBst(l) && IsBst(r)
      && (forall x | x in Keys(l) :: x < k)
      && (forall x | x in Keys(r) :: k < x)
  }

  /** The root and the cardinality counter `_size`. */
  datatype Tree = Tree(root: Subtree, size: nat)
  {
    /** The class invariant every public operation keeps. */
    predicate Valid()
    {
      IsBst(root) && size == Size(root)
    }
  }

  // ---------------------------------------------------------------------------
  // Facts about keys
  // ---------------------------------------------------------------------------

  /** In a search tree the cells hold distinct keys, so the cell count is the key count. */
  lemma {:induction false} BstSizeIsKeyCount(n: Subtree)
    requires IsBst(n)
    ensures |Keys(n)| == Size(n)
  {
    if n.Node? {
      BstSizeIsKeyCount(n.left);
      BstSizeIsKeyCount(n.right);
      var l, k, r := Keys(n.left), n.key, Keys(n.right);
      assert l !! {k};
      forall x | x in l + {k}
        ensures x !in r
      {
        if x in l {
          assert x < k;
        }
      }
      assert (l + {k}) !! r;
    }
  }

  /** The rightmost cell of a search tree holds its largest key. */
  lemma {:induction false} RightmostIsMax(n: Subtree)
    requires n.Node? && IsBst(n)
    ensures At(n, RightmostPath(n)).key in Keys(n)
    ensures forall x | x in Keys(n) :: x <= At(n, RightmostPath(n)).key
  {
    if n.right.Node? {
      RightmostIsMax(n.right);
      AtCons(n, Right, RightmostPath(n.right));
    }
  }

  lemma {:induction false} RightmostIsMaxIfBst(n: Subtree)
    requires n.Node?
    ensures IsBst(n) ==> At(n, RightmostPath(n)).key in Keys(n)
    ensures IsBst(n) ==> forall x | x in Keys(n) :: x <= At(n, RightmostPath(n)).key
  {
    if IsBst(n) {
      RightmostIsMax(n);
    }
  }

  /** The leftmost cell of a search tree holds its smallest key. */
  lemma {:induction false} LeftmostIsMin(n: Subtree)
    requires n.Node? && IsBst(n)
    ensures At(n, LeftmostPath(n)).key in Keys(n)
    ensures forall x | x in Keys(n) :: At(n, LeftmostPath(n)).key <= x
  {
    if n.left.Node? {
      LeftmostIsMin(n.left);
      AtCons(n, Left, LeftmostPath(n.left));
    }
  }

  predicate StrictlyIncreasing(s: seq<int>)
  {
    forall i, j | 0 <= i < j < |s| :: s[i] < s[j]
  }

  /** Every order's iteration yields exactly the tree's keys. */
  lemma {:induction false} TraversalKeysAreKeys(o: Order, n: Subtree)
    ensures forall x :: x in TraversalKeys(o, n) <==> x in Keys(n)
  {
    if n.Node? {
      TraversalKeysAreKeys(o, n.left);
      TraversalKeysAreKeys(o, n.right);
    }
  }

  /** In a search tree, an inorder iteration meets the keys in strictly increasing order. */
  lemma {:induction false} InorderIncreasingOfBst(n: Subtree)
    requires IsBst(n)
    ensures StrictlyIncreasing(TraversalKeys(Inorder, n))
  {
    if n.Node? {
      var l, k, r := n.left, n.key, n.right;
      InorderIncreasingOfBst(l);
      InorderIncreasingOfBst(r);
      TraversalKeysAreKeys(Inorder, l);
      TraversalKeysAreKeys(Inorder, r);
      var a, b := TraversalKeys(Inorder, l), TraversalKeys(Inorder, r);
      var s := TraversalKeys(Inorder, n);
      assert s == a + [k] + b;
      forall i, j | 0 <= i < j < |s|
        ensures s[i] < s[j]
      {
        if i < |a| {
          assert s[i] == a[i] && a[i] in a;
        }
        if |a| < j {
          assert s[j] == b[j - |a| - 1] && b[j - |a| - 1] in b;
        }
        if |a| < i {
          assert s[i] == b[i - |a| - 1];
        }
      }
    }
  }

  /** A tree whose inorder iteration is strictly increasing is a search tree. */
  lemma {:induction false} BstOfInorderIncreasing(n: Subtree)
    requires StrictlyIncreasing(TraversalKeys(Inorder, n))
    ensures IsBst(n)
  {
    if n.Node? {
      var l, k, r := n.left, n.key, n.right;
      TraversalKeysAreKeys(Inorder, l);
      TraversalKeysAreKeys(Inorder, r);
      var a, b := TraversalKeys(Inorder, l), TraversalKeys(Inorder, r);
      var s := TraversalKeys(Inorder, n);
      assert s == a + [k] + b;
      forall i, j | 0 <= i < j < |a|
        ensures a[i] < a[j]
      {
        assert s[i] == a[i] && s[j] == a[j];
      }
      forall i, j | 0 <= i < j < |b|
        ensures b[i] < b[j]
      {
        assert s[|a| + 1 + i] == b[i] && s[|a| + 1 + j] == b[j];
      }
      BstOfInorderIncreasing(l);
      BstOfInorderIncreasing(r);
      forall x | x in Keys(l)
        ensures x < k
      {
        var i :| 0 <= i < |a| && a[i] == x;
        assert s[i] == x && s[|a|] == k;
      }
      forall x | x in Keys(r)
        ensures k < x
      {
        var i :| 0 <= i < |b| && b[i] == x;
        assert s[|a| + 1 + i] == x && s[|a|] == k;
      }
    }
  }

  /** The search-tree ordering holds exactly when an inorder iteration meets the keys in
      strictly increasing order. */
  lemma BstIffInorderIncreasing(n: Subtree)
    ensures IsBst(n) <==> StrictlyIncreasing(TraversalKeys(Inorder, n))
  {
    if IsBst(n) {
      InorderIncreasingOfBst(n);
    }
    if StrictlyIncreasing(TraversalKeys(Inorder, n)) {
      BstOfInorderIncreasing(n);
    }
  }

  // ---------------------------------------------------------------------------
  // find
  // ---------------------------------------------------------------------------

  /** `_find`: descend by comparison from `n`; the path of the cell holding `k`, or null. */
  function FindInSubtree(n: Subtree, k: int): (r: Option<Path>)
    ensures r.Some? ==> IsNodeAt(n, r.value) && At(n, r.value).key == k
    ensures IsBst(n) ==> (r.Some? <==> k in Keys(n))
  {
    match n
    case Nil => None
    case Node(l, x, rt) =>
      if x < k then
        var f := FindInSubtree(rt, k);
        if f.Some? then AtCons(n, Right, f.value); Some([Right] + f.value) else None
      else if k < x then
        var f := FindInSubtree(l, k);
        if f.Some? then AtCons(n, Left, f.value); Some([Left] + f.value) else None
      else Some([])
  }

  /** `find(key)` on the whole tree. */
  function Find(t: Tree, k: int): Option<Path>
  {
    FindInSubtree(t.root, k)
  }

  // ---------------------------------------------------------------------------
  // insert
  // ---------------------------------------------------------------------------

  /** Every cell of `n` is still a cell of `m`, at the same path and with the same key:
      the tree is only grown at its null slots, never restructured. */
  ghost predicate KeepsCells(n: Subtree, m: Subtree)
  {
    forall q | IsNodeAt(n, q) :: IsNodeAt(m, q) && At(m, q).key == At(n, q).key
  }

  /** Cells are kept by a node when they are kept by both of its subtrees. */
  lemma KeepsCellsOfChildren(l: Subtree, x: int, rt: Subtree, l': Subtree, rt': Subtree)
    requires KeepsCells(l, l') && KeepsCells(rt, rt')
    ensures KeepsCells(Node(l, x, rt), Node(l', x, rt'))
  {
    var n, m := Node(l, x, rt), Node(l', x, rt');
    forall q | IsNodeAt(n, q)
      ensures IsNodeAt(m, q) && At(m, q).key == At(n, q).key
    {
      if |q| > 0 {
        assert q == [q[0]] + q[1..];
        AtCons(n, q[0], q[1..]);
        AtCons(m, q[0], q[1..]);
      }
    }
  }

  /** `_insert_to_subtree` below `n`: the new subtree, the path of the cell holding `k`,
      and whether a cell was allocated (the counter increment). */
  function InsertIntoSubtree(n: Subtree, k: int): (r: (Subtree, Path, bool))
    ensures IsNodeAt(r.0, r.1) && At(r.0, r.1).key == k
    ensures FindInSubtree(r.0, k) == Some(r.1)
    ensures Keys(r.0) == Keys(n) + {k}
    ensures Size(r.0) == Size(n) + (if r.2 then 1 else 0)
    ensures !r.2 ==> r.0 == n
    ensures r.2 ==> At(r.0, r.1) == Node(Nil, k, Nil) && At(n, r.1) == Nil
    ensures r.2 && |r.1| > 0 ==> IsNodeAt(n, Parent(r.1))
    ensures KeepsCells(n, r.0)
    ensures IsBst(n) ==> IsBst(r.0) && (r.2 <==> k !in Keys(n))
  {
    match n
    case Nil => (Node(Nil, k, Nil), [], true)
    case Node(l, x, rt) =>
      if k < x then
        var (l', p, added) := InsertIntoSubtree(l, k);
        var n' := Node(l', x, rt);
        KeepsCellsOfChildren(l, x, rt, l', rt);
        AtCons(n', Left, p);
        AtCons(n, Left, p);
        ParentOfCons(Left, p);
        if |p| > 0 then AtCons(n, Left, Parent(p)); (n', [Left] + p, added)
        else (n', [Left] + p, added)
      else if x < k then
        var (rt', p, added) := InsertIntoSubtree(rt, k);
        var n' := Node(l, x, rt');
        KeepsCellsOfChildren(l, x, rt, l, rt');
        AtCons(n', Right, p);
        AtCons(n, Right, p);
        ParentOfCons(Right, p);
        if |p| > 0 then AtCons(n, Right, Parent(p)); (n', [Right] + p, added)
        else (n', [Right] + p, added)
      else (n, [], false)
  }

  /** `insert(key)`: the updated tree and the path of the new or already present cell. */
  function Insert(t: Tree, k: int): (r: (Tree, Path))
    requires t.Valid()
    ensures r.0.Valid()
    ensures Keys(r.0.root) == Keys(t.root) + {k}
    ensures Find(r.0, k) == Some(r.1)
    ensures k in Keys(t.root) ==> r.0 == t
    ensures k !in Keys(t.root) ==> r.0.size == t.size + 1
    ensures k !in Keys(t.root) ==> At(r.0.root, r.1) == Node(Nil, k, Nil) && At(t.root, r.1) == Nil
    ensures k !in Keys(t.root) && t.root.Nil? ==> r.1 == []
    ensures k !in Keys(t.root) && t.root.Node? ==> |r.1| > 0 && IsNodeAt(t.root, Parent(r.1))
    ensures KeepsCells(t.root, r.0.root)
  {
    var (root', p, added) := InsertIntoSubtree(t.root, k);
    (Tree(root', if added then t.size + 1 else t.size), p)
  }

  // ---------------------------------------------------------------------------
  // remove
  // ---------------------------------------------------------------------------

  /** `_remove_from_subtree`: the subtree that replaces `n` once `k` is removed from it,
      and whether a cell was released (the counter decrement). A cell with two children
      takes the key of its inorder predecessor, which is then removed from the left. */
  function RemoveFromSubtree(n: Subtree, k: int): (r: (Subtree, bool))
    ensures IsBst(n) ==> IsBst(r.0)
    ensures IsBst(n) ==> Keys(r.0) == Keys(n) - {k}
    ensures IsBst(n) ==> (r.1 <==> k in Keys(n))
    ensures IsBst(n) ==> Size(r.0) == Size(n) - (if r.1 then 1 else 0)
    ensures IsBst(n) && !r.1 ==> r.0 == n
  {
    match n
    case Nil => (Nil, false)
    case Node(l, x, rt) =>
      if x < k then
        var (rt', removed) := RemoveFromSubtree(rt, k);
        (Node(l, x, rt'), removed)
      else if k < x then
        var (l', removed) := RemoveFromSubtree(l, k);
        (Node(l', x, rt), removed)
      else if !HasLeftSubtree(n) && !HasRightSubtree(n) then (Nil, true)
      else if !HasLeftSubtree(n) && HasRightSubtree(n) then (rt, true)
      else if HasLeftSubtree(n) && !HasRightSubtree(n) then (l, true)
      else
        var m := At(l, RightmostPath(l)).key;
        RightmostIsMaxIfBst(l);
        var (l', removed) := RemoveFromSubtree(l, m);
        (Node(l', m, rt), removed)
  }

  /** `remove(key)`: the updated tree and whether a cell was removed. */
  function Remove(t: Tree, k: int): (r: (Tree, bool))
    requires t.Valid()
    ensures r.0.Valid()
    ensures Keys(r.0.root) == Keys(t.root) - {k}
    ensures r.1 <==> k in Keys(t.root)
    ensures !r.1 ==> r.0 == t
    ensures r.1 ==> r.0.size == t.size - 1
  {
    if IsEmpty(t) then (t, false)
    else
      var currSize := t.size;
      var (root', removed) := RemoveFromSubtree(t.root, k);
      var size' := if removed then t.size - 1 else t.size;
      (Tree(root', size'), currSize != size')
  }

  /** Removing the key of a cell with two children: the cell now holds the largest key of
      its former left subtree, that key is gone from the left, the right is untouched. */
  lemma {:induction false} RemoveTwoChildren(n: Subtree)
    requires IsBst(n) && n.Node? && n.left.Node? && n.right.Node?
    ensures var r := RemoveFromSubtree(n, n.key).0;
      && r.Node?
      && r.key in Keys(n.left)
      && (forall x | x in Keys(n.left) :: x <= r.key)
      && Keys(r.left) == Keys(n.left) - {r.key}
      && r.right == n.right
  {
    RightmostIsMax(n.left);
  }

  /** Removing a key right after inserting it gives back the original subtree. */
  lemma {:induction false} RemoveFromSubtreeUndoesInsert(n: Subtree, k: int)
    requires IsBst(n) && k !in Keys(n)
    ensures RemoveFromSubtree(InsertIntoSubtree(n, k).0, k) == (n, true)
  {
    match n
    case Nil =>
    case Node(l, x, r) =>
      if k < x {
        RemoveFromSubtreeUndoesInsert(l, k);
      } else {
        RemoveFromSubtreeUndoesInsert(r, k);
      }
  }

  /** `remove(key)` right after `insert(key)` of an absent key restores the tree. */
  lemma RemoveUndoesInsert(t: Tree, k: int)
    requires t.Valid() && k !in Keys(t.root)
    ensures Remove(Insert(t, k).0, k) == (t, true)
  {
    RemoveFromSubtreeUndoesInsert(t.root, k);
  }

  // ---------------------------------------------------------------------------
  // empty, size, copy, equality
  // ---------------------------------------------------------------------------

  /** A new tree: no root, counter zero. */
  function EmptyTree(): (t: Tree)
    ensures t.Valid() && Keys(t.root) == {}
  {
    Tree(Nil, 0)
  }

  /** `empty()`: the root pointer is null. */
  function IsEmpty(t: Tree): (r: bool)
    ensures t.Valid() ==> (r <==> t.size == 0)
    ensures r <==> Keys(t.root) == {}
  {
    t.root.Nil?
  }

  /** `size()` under the invariant: the number of keys in the set. */
  lemma SizeIsKeyCount(t: Tree)
    requires t.Valid()
    ensures t.size == |Keys(t.root)|
  {
    BstSizeIsKeyCount(t.root);
  }

  /** `_copy_subtree`: a cell-by-cell copy, equal in shape and keys to the original. */
  function CopySubtree(n: Subtree): (r: Subtree)
    ensures r == n
  {
    match n
    case Nil => Nil
    case Node(l, k, rt) => Node(CopySubtree(l), k, CopySubtree(rt))
  }

  /** The copy constructor: copied cells and the same counter. */
  function CopyTree(t: Tree): (r: Tree)
    ensures r == t
    ensures t.Valid() ==> r.Valid()
  {
    Tree(CopySubtree(t.root), t.size)
  }

  /** `_compare_with`: every key of `n` is found in `other`. */
  function CompareWith(n: Subtree, other: Tree): (r: bool)
    ensures IsBst(other.root) ==> (r <==> Keys(n) <= Keys(other.root))
  {
    match n
    case Nil => true
    case Node(l, k, rt) =>
      if Find(other, k).None? then false
      else CompareWith(l, other) && CompareWith(rt, other)
  }

  lemma SubsetOfSameSize(a: set<int>, b: set<int>)
    requires a <= b && |a| == |b|
    ensures a == b
  {
    assert b == a + (b - a);
    assert a !! (b - a);
  }

  /** `operator==`: equal counters and every key of this tree found in the other one;
      for valid trees, exactly equality of the key sets. */
  function Equal(a: Tree, b: Tree): (r: bool)
    requires a.Valid() && b.Valid()
    ensures r <==> Keys(a.root) == Keys(b.root)
  {
    SizeIsKeyCount(a);
    SizeIsKeyCount(b);
    if a.size != b.size then false
    else
      if CompareWith(a.root, b) then SubsetOfSameSize(Keys(a.root), Keys(b.root)); true
      else false
  }
}

=== FILE: tree_iterator.dfy ===
/** The order-polymorphic bidirectional iterator.

    An iterator pairs the root it walks with its current position; `None` is the end
    position. Moving forward or backward dispatches on the order to the link-walking
    steps, which move exactly one place along the order's sequence; stepping back
    from the end position yields the order's last cell.
 */
module TreeIterator {
  import opened Wrappers
  import opened Nodes
  import opened Traversals
  import InorderSteps
  import PreorderSteps
  import PostorderSteps

  /** The next position after the cell at `p`. A null position is not accepted: the
      inorder and preorder steps exit the program on it, the postorder step dereferences it. */
  function NextNode(o: Order, n: Subtree, p: Path): Option<Path>
    requires IsNodeAt(n, p)
  {
    match o
    case Inorder => InorderSteps.Next(n, p)
    case Preorder => PreorderSteps.Next(n, p)
    case Postorder => PostorderSteps.Next(n, p)
  }

  /** The positions the backward step accepts: the end position, or a cell; in preorder
      not the root, whose missing parent the step dereferences. */
  predicate CanStepBack(o: Order, n: Subtree, pos: Option<Path>)
  {
    pos.Some? ==> IsNodeAt(n, pos.value) && (o == Preorder ==> |pos.value| > 0)
  }

  /** The position before `pos`; from the end position, the order's rbegin cell. */
  function PrevNode(o: Order, n: Subtree, pos: Option<Path>): Option<Path>
    requires CanStepBack(o, n, pos)
  {
    if pos.None? then FindRbeginNode(o, n)
    else
      match o
      case Inorder => InorderSteps.Prev(n, pos.value)
      case Preorder => PreorderSteps.Prev(n, pos.value)
      case Postorder => PostorderSteps.Prev(n, pos.value)
  }

  // ---------------------------------------------------------------------------
  // The steps move one place along the order's sequence
  // ---------------------------------------------------------------------------

  /** From the i-th position of order `o`, the forward step reaches the (i+1)-th, or the end. */
  lemma {:induction false} NextNodeIsSuccessor(o: Order, n: Subtree, i: nat)
    requires i < Size(n)
    ensures IsNodeAt(n, Traversal(o, n)[i])
    ensures NextNode(o, n, Traversal(o, n)[i]) == After(Traversal(o, n), i)
  {
    match o
    case Inorder => InorderSteps.NextIsSuccessor(n, i);
    case Preorder => PreorderSteps.NextIsSuccessor(n, i);
    case Postorder => PostorderSteps.NextIsSuccessor(n, i);
  }

  /** From the i-th position of order `o`, the backward step reaches the (i-1)-th, or null
      before the first; in preorder the first position (the root) is excluded. */
  lemma {:induction false} PrevNodeIsPredecessor(o: Order, n: Subtree, i: nat)
    requires i < Size(n) && (o == Preorder ==> i > 0)
    ensures CanStepBack(o, n, Some(Traversal(o, n)[i]))
    ensures PrevNode(o, n, Some(Traversal(o, n)[i])) == Before(Traversal(o, n), i)
  {
    match o
    case Inorder => InorderSteps.PrevIsPredecessor(n, i);
    case Preorder => PreorderSteps.PrevIsPredecessor(n, i);
    case Postorder => PostorderSteps.PrevIsPredecessor(n, i);
  }

  /** Stepping back from the end position reaches the last position, for every order. */
  lemma {:induction false} PrevOfEndIsLast(o: Order, n: Subtree)
    ensures PrevNode(o, n, None) == if Size(n) == 0 then None else Some(Traversal(o, n)[Size(n) - 1])
  {
    RbeginIsLast(o, n);
  }

  /** The forward step from any cell, stated for the cell's index in the order. */
  lemma NextNodeOfCell(o: Order, n: Subtree, p: Path)
    requires IsNodeAt(n, p)
    ensures p in Traversal(o, n)
    ensures forall i | 0 <= i < |Traversal(o, n)| && Traversal(o, n)[i] == p ::
      NextNode(o, n, p) == After(Traversal(o, n), i)
  {
    TraversalCovers(o, n, p);
    forall i | 0 <= i < |Traversal(o, n)| && Traversal(o, n)[i] == p
      ensures NextNode(o, n, p) == After(Traversal(o, n), i)
    {
      NextNodeIsSuccessor(o, n, i);
    }
  }

  /** The backward step from any accepted cell, stated for the cell's index in the order. */
  lemma PrevNodeOfCell(o: Order, n: Subtree, p: Path)
    requires CanStepBack(o, n, Some(p))
    ensures p in Traversal(o, n)
    ensures forall i | 0 <= i < |Traversal(o, n)| && Traversal(o, n)[i] == p ::
      PrevNode(o, n, Some(p)) == Before(Traversal(o, n), i)
  {
    TraversalCovers(o, n, p);
    forall i | 0 <= i < |Traversal(o, n)| && Traversal(o, n)[i] == p
      ensures PrevNode(o, n, Some(p)) == Before(Traversal(o, n), i)
    {
      if o == Preorder {
        assert Traversal(o, n)[0] == [];
      }
      PrevNodeIsPredecessor(o, n, i);
    }
  }

  /** The backward step undoes the forward step, including the step onto the end position. */
  lemma PrevUndoesNext(o: Order, n: Subtree, p: Path)
    requires IsNodeAt(n, p)
    ensures CanStepBack(o, n, NextNode(o, n, p))
    ensures PrevNode(o, n, NextNode(o, n, p)) == Some(p)
  {
    var s := Traversal(o, n);
    NextNodeOfCell(o, n, p);
    var i :| 0 <= i < |s| && s[i] == p;
    if i + 1 < |s| {
      PrevNodeIsPredecessor(o, n, i + 1);
    } else {
      PrevOfEndIsLast(o, n);
    }
  }

  /** The forward step undoes the backward step wherever the backward step lands on a cell. */
  lemma NextUndoesPrev(o: Order, n: Subtree, pos: Option<Path>)
    requires CanStepBack(o, n, pos) && PrevNode(o, n, pos).Some?
    ensures IsNodeAt(n, PrevNode(o, n, pos).value)
    ensures NextNode(o, n, PrevNode(o, n, pos).value) == pos
  {
    var s := Traversal(o, n);
    TraversalNodes(o, n);
    if pos.None? {
      PrevOfEndIsLast(o, n);
      NextNodeIsSuccessor(o, n, |s| - 1);
    } else {
      PrevNodeOfCell(o, n, pos.value);
      var i :| 0 <= i < |s| && s[i] == pos.value;
      NextNodeIsSuccessor(o, n, i - 1);
    }
  }

  // ---------------------------------------------------------------------------
  // The iterator object
  // ---------------------------------------------------------------------------

  /** A cursor: the root it walks and its current position (`None` is the end position). */
  datatype Iterator = Iterator(order: Order, root: Subtree, node: Option<Path>)

  predicate Dereferenceable(it: Iterator)
  {
    it.node.Some? && IsNodeAt(it.root, it.node.value)
  }

  /** `operator*`: the key at the current cell; the end position cannot be dereferenced. */
  function Deref(it: Iterator): int
    requires Dereferenceable(it)
  {
    At(it.root, it.node.value).key
  }

  /** Prefix `operator++`: move to the next position and yield the moved iterator. */
  function Increment(it: Iterator): (r: Iterator)
    requires Dereferenceable(it)
    ensures r.order == it.order && r.root == it.root
    ensures it.node.value in Traversal(it.order, it.root)
    ensures forall i | 0 <= i < |Traversal(it.order, it.root)| && Traversal(it.order, it.root)[i] == it.node.value ::
      r.node == After(Traversal(it.order, it.root), i)
  {
    NextNodeOfCell(it.order, it.root, it.node.value);
    it.(node := NextNode(it.order, it.root, it.node.value))
  }

  /** Prefix `operator--`: move to the previous position and yield the moved iterator. */
  function Decrement(it: Iterator): (r: Iterator)
    requires CanStepBack(it.order, it.root, it.node)
    ensures r.order == it.order && r.root == it.root
    ensures it.node.Some? ==> it.node.value in Traversal(it.order, it.root)
    ensures it.node.None? ==>
      r.node == if Size(it.root) == 0 then None else Some(Traversal(it.order, it.root)[Size(it.root) - 1])
    ensures it.node.Some? ==>
      forall i | 0 <= i < |Traversal(it.order, it.root)| && Traversal(it.order, it.root)[i] == it.node.value ::
        r.node == Before(Traversal(it.order, it.root), i)
  {
    if it.node.None? then
      PrevOfEndIsLast(it.order, it.root);
      it.(node := PrevNode(it.order, it.root, it.node))
    else
      PrevNodeOfCell(it.order, it.root, it.node.value);
      it.(node := PrevNode(it.order, it.root, it.node))
  }

  // ---------------------------------------------------------------------------
  // Postfix increment and decrement
  //
  // Each postfix operator is a pair: the iterator after the call, and the value of the
  // call expression. The library's postfix operators move the iterator and then yield
  // the iterator itself, exactly like the prefix ones; a postfix operator is meant to
  // yield the position held before the move.
  // ---------------------------------------------------------------------------

  /** Postfix `operator++` as the library writes it. */
  function PostIncrementAsWritten(it: Iterator): (r: (Iterator, Iterator))
    requires Dereferenceable(it)
    ensures r.1 == r.0
    ensures r.0.order == it.order && r.0.root == it.root
    ensures it.node.value in Traversal(it.order, it.root)
    ensures forall i | 0 <= i < |Traversal(it.order, it.root)| && Traversal(it.order, it.root)[i] == it.node.value ::
      r.0.node == After(Traversal(it.order, it.root), i)
  {
    var moved := Increment(it);
    (moved, moved)
  }

  /** Postfix `operator--` as the library writes it. */
  function PostDecrementAsWritten(it: Iterator): (r: (Iterator, Iterator))
    requires CanStepBack(it.order, it.root, it.node)
    ensures r.1 == r.0
    ensures r.0.order == it.order && r.0.root == it.root
    ensures it.node.None? ==>
      r.0.node == if Size(it.root) == 0 then None else Some(Traversal(it.order, it.root)[Size(it.root) - 1])
    ensures it.node.Some? ==> it.node.value in Traversal(it.order, it.root)
    ensures it.node.Some? ==>
      forall i | 0 <= i < |Traversal(it.order, it.root)| && Traversal(it.order, it.root)[i] == it.node.value ::
        r.0.node == Before(Traversal(it.order, it.root), i)
  {
    var moved := Decrement(it);
    (moved, moved)
  }

  /** With the single key 5, `*(it++)` and `*(it--)` from that cell, as written, read no key:
      both expressions are already past the cell. */
  lemma PostfixYieldsMovedIterator()
    ensures var it := Iterator(Inorder, Node(Nil, 5, Nil), Some([]));
      && Dereferenceable(it) && Deref(it) == 5
      && !Dereferenceable(PostIncrementAsWritten(it).1)
      && !Dereferenceable(PostDecrementAsWritten(it).1)
  {
  }

  /** Postfix `operator++` as intended: the iterator moves one place forward and the
      expression yields the position it held before. */
  function PostIncrement(it: Iterator): (r: (Iterator, Iterator))
    requires Dereferenceable(it)
    ensures r.1 == it
    ensures r.0.order == it.order && r.0.root == it.root
    ensures it.node.value in Traversal(it.order, it.root)
    ensures forall i | 0 <= i < |Traversal(it.order, it.root)| && Traversal(it.order, it.root)[i] == it.node.value ::
      r.0.node == After(Traversal(it.order, it.root), i)
  {
    (Increment(it), it)
  }

  /** Postfix `operator--` as intended: the iterator moves one place backward and the
      expression yields the position it held before. */
  function PostDecrement(it: Iterator): (r: (Iterator, Iterator))
    requires CanStepBack(it.order, it.root, it.node)
    ensures r.1 == it
    ensures r.0.order == it.order && r.0.root == it.root
    ensures it.node.None? ==>
      r.0.node == if Size(it.root) == 0 then None else Some(Traversal(it.order, it.root)[Size(it.root) - 1])
    ensures it.node.Some? ==> it.node.value in Traversal(it.order, it.root)
    ensures it.node.Some? ==>
      forall i | 0 <= i < |Traversal(it.order, it.root)| && Traversal(it.order, it.root)[i] == it.node.value ::
        r.0.node == Before(Traversal(it.order, it.root), i)
  {
    (Decrement(it), it)
  }
}

=== FILE: wrappers.dfy ===
/** An optional value: `None` stands for a null node pointer. */
module Wrappers {

  /** `None` plays the role of a null pointer; `Some(v)` of a pointer to `v`. */
  datatype Option<+T> = None | Some(value: T)
}
